=== FILE: README.md ===
# Neutron-population simulator: a Dafny model

This project models the deterministic core of a small agent-based simulator
of a fission chain reaction. Neutrons diffuse on a 2D grid, get absorbed or
cause fissions, and slow down from fast to epithermal to thermal. Control
rods move toward a target position and contribute a negative reactivity.

Every random value of the original becomes an explicit input of the model:

- the uniform draw of an action choice;
- the direction draws of a rejection loop;
- the step magnitudes;
- the raw fission multiplicity;
- the thermalization draw.

A whole run reads its draws from a function `(generation, index) -> Draw`.

Modules:

- `Wrappers` — `Option` and `Result`.
- `ControlRod` — the rod-type table, the constructor, the rate-limited `step`,
  and the S-curve reactivity. cos(π·x) is a function parameter that is only
  assumed to equal 1 at 0, equal −1 at 1, and stay within [−1, 1]. The
  monotonicity lemma also assumes that it decreases on [0, 1].
- `NeutronAgent` — the neutron record and constructor, the direction
  rejection loop, the truncated diffusion step, and `evolve`.
- `Utils` — the fission-multiplicity clamp `min(5, max(2, raw))`.
- `ReactorV2` — the generation step of the agent engine. It covers:
  - the action choice;
  - the toric wrap and grid check;
  - a per-neutron turn;
  - the generation as a recursive fold that threads `next_id`, and as the
    per-neutron turns gathered in population order;
  - the snapshot;
  - the run of `n_iter` generations from the constructor's population.
- `RandomProcess` — the free-function helpers of the earlier engine:
  - the cumulative-threshold `choose_action` as a loop;
  - the sign-only `new_direction`;
  - the dictionary-based `new_position`.
- `NeutronCalls` — how Python binds the arguments of the two `Neutron(...)`
  calls in the engine, and what the first `evolve` then does (see Findings).

Python floats are modelled as reals. `int()` on a float is truncation toward
zero (`NeutronAgent.Trunc`). Python's `%` with a positive divisor agrees with
Dafny's.

## Model

| member | source | states |
|---|---|---|
| ControlRod.SpecOf | src/controlRod.py:7-11 | every role in the table has a negative total worth and a positive maximum speed |
| ControlRod.ParseRole | src/controlRod.py:24 | a name is found in the rod-type table exactly when some role has that key |
| ControlRod.ParseRoleName | src/controlRod.py:7-11 | every role's table key looks up that same role |
| ControlRod.NewRod | src/controlRod.py:15-36 | fails with "Unknown control rod type: …" exactly for names outside {regulation, compensation, scram}; otherwise the rod carries its role's table constants, starts fully withdrawn (100) and aims at 100 |
| ControlRod.DefaultRodIsRegulation | src/controlRod.py:15 | a rod built without a type name (the parameter defaults to "regulation") is a regulation rod with its table constants |
| ControlRod.ClampStroke | src/controlRod.py:58 | the clamp lands in [0, 100], keeps a position already there, and maps below-range to 0 and above-range to 100 |
| ControlRod.Step | src/controlRod.py:39-58 | only the position changes and it ends in [0, 100] for any target; with dt ≥ 0 the move is at most maxSpeed·dt; a target in range closer than maxSpeed·dt is hit exactly; toward a target in range the distance becomes max(0, distance − maxSpeed·dt) |
| ControlRod.ClampNeverFarther | src/controlRod.py:58 | clamping never moves a point farther from any point of [0, 100] |
| ControlRod.Steps | src/controlRod.py:39-58 | repeated steps change only the position and leave it in [0, 100] |
| ControlRod.StepsReachTarget | src/controlRod.py:44-58 | a valid rod with a target in range reaches the target exactly after any k steps with k·maxSpeed·dt ≥ the initial distance |
| ControlRod.FractionInserted | src/controlRod.py:67 | a position in [0, 100] converts to a fraction in [0, 1]: 0 when fully withdrawn, 1 when fully inserted |
| ControlRod.SCurve | src/controlRod.py:71 | the S-curve factor lies in [0, 1] and is 0 at fraction 0 and 1 at fraction 1 |
| ControlRod.ReactivityPcm | src/controlRod.py:60-74 | the reactivity is 0 fully withdrawn, the total worth fully inserted, and between the worth and 0 for a non-positive worth |
| ControlRod.ReactivityNonPositive | src/controlRod.py:71-74 | for every table-built rod the reactivity lies between its (negative) total worth and 0 |
| ControlRod.ReactivityMonotone | src/controlRod.py:67-74 | inserting a rod deeper never raises its reactivity, given cos(π·x) decreasing on [0, 1] |
| NeutronAgent.NewNeutron | src/Neutron.py:17-32 | a new neutron keeps its arguments, has age 0, is alive, and has the trajectory [(x, y)] |
| NeutronAgent.FirstMovingIndex | src/Neutron.py:50-54 | the rejection loop stops at the first draw that is not (0, 0); every earlier draw was (0, 0) |
| NeutronAgent.RandomDirection | src/Neutron.py:49-54 | an accepted direction has components in {−1, 0, 1}, is never (0, 0), and is the first such draw; none is accepted exactly when every draw is (0, 0) |
| NeutronAgent.Trunc | src/Neutron.py:41-42 | int() of a float rounds toward zero, for either sign |
| NeutronAgent.Diffuse | src/Neutron.py:37-42 | only x and y change; a zero direction component leaves that coordinate unchanged; each coordinate moves by the truncation of direction·magnitude·speed |
| NeutronAgent.DiffuseAtFullSpeed | src/Neutron.py:37-42 | at speed 1 the displacement is exactly direction·magnitude and the neutron always leaves its cell |
| NeutronAgent.DiffuseStalls | src/Neutron.py:39-42 | once max_speed·speed < 1, truncation cancels every diffusion step |
| NeutronAgent.Next | src/Neutron.py:68-72 | the next kind is one rank further, except that thermal stays thermal |
| NeutronAgent.Evolve | src/Neutron.py:59-78 | the kind stays or advances one place, never back; it advances exactly when the draw is below the probability that applies; without a moderator age+1 and speed·0.98, with one both unchanged; nothing else changes |
| NeutronAgent.EvolveAllProgress | src/Neutron.py:64-72 | after k moderator-free evolutions the rank rose by at most k, the age by exactly k, and the speed decayed by 0.98^k |
| Utils.SimulPoisson | src/utils.py:10-15 | the multiplicity lies in [2, 5]; a raw draw in [2, 5] is kept; below 2 gives 2, above 5 gives 5 |
| Utils.SimulPoissonMonotone | src/utils.py:15 | a larger raw draw never yields fewer neutrons |
| Utils.SimulPoissonIdempotent | src/utils.py:15 | clamping twice equals clamping once |
| ReactorV2.ChooseAction | src/ReactorV2.py:117-125 | diffusion iff u < d/total, absorption iff d/total ≤ u < (a+d)/total, fission iff both comparisons fail |
| ReactorV2.ChooseActionShares | src/ReactorV2.py:117-125 | with non-negative weights and f > 0, the interval edge 0 starts diffusion when d > 0, the edge d/total starts absorption (or fission when a = 0), and the edge (d+a)/total starts fission |
| ReactorV2.InTheGridIffUnwrapped | src/ReactorV2.py:135-136 | on a valid grid, a cell is in the grid exactly when reducing its coordinates modulo n and m leaves them unchanged |
| ReactorV2.Wrap | src/ReactorV2.py:87-89 | the toric wrap lands in the grid, changes only x and y, and leaves a neutron already in the grid alone |
| ReactorV2.WrapCongruent | src/ReactorV2.py:87-89 | the wrapped coordinates are congruent to the originals modulo n and m |
| ReactorV2.Settle | src/ReactorV2.py:87-92 | a kept neutron is the same neutron moved into the grid; on a toric grid it is always kept; otherwise it is kept exactly when it lies in the grid |
| ReactorV2.Newborn | src/ReactorV2.py:79 | a fission product has the given id and the parent's cell, is fast, alive, age 0, speed 1.0, and carries the run's thermalization probabilities |
| ReactorV2.Newborns | src/ReactorV2.py:77-81 | k fission products with consecutive ids from next_id, all at the parent's cell |
| ReactorV2.ProcessNeutron | src/ReactorV2.py:57-92 | a dead or absorbed neutron contributes nothing; a fission adds SimulPoisson(raw) fresh fast neutrons at the parent's cell; a survivor keeps its id, probabilities and trajectory, is alive, in the grid, one generation older and at most one kind further |
| ReactorV2.DirectionOf | src/Neutron.py:49-54 | the engine's direction draws always end the rejection loop, on a pair in {−1, 0, 1}² other than (0, 0) |
| ReactorV2.DiffusedCell | src/ReactorV2.py:66 | at non-negative speed a diffusion moves each coordinate in the drawn direction by the truncation of magnitude·speed |
| ReactorV2.ProcessNeutronSurvives | src/ReactorV2.py:83-92 | a kept neutron survives exactly when the grid is toric or its turn ends in the grid |
| ReactorV2.ProcessNeutronSettles | src/ReactorV2.py:66-92 | a survivor sits on the end cell of its turn (its own cell, or the diffused cell when it diffused), wrapped modulo n and m on a toric grid; its speed is the parent's times 0.98 and its kind the one evolve gives the parent; every other field is the parent's, with the age one higher |
| ReactorV2.Gen | src/ReactorV2.py:54-92 | next_id advances by exactly the number of newborns; newborns carry ids next_id, next_id+1, … and are fast, alive, age 0, speed 1; survivors are alive, in the grid, and no more numerous than the population |
| ReactorV2.GenIsCollect | src/ReactorV2.py:54-92 | the loop's two lists are the turns' newborns and survivors, concatenated in population order, each turn numbering its newborns on from the previous one |
| ReactorV2.TurnsAt | src/ReactorV2.py:57-92 | the j-th turn is the j-th neutron's own turn at some value of next_id |
| ReactorV2.GenSurvivorsWereKept | src/ReactorV2.py:57-92 | every survivor's id belongs to a neutron of the population that was alive, not absorbed, and whose turn ended in the grid (or the grid is toric) |
| ReactorV2.GenKeepsEverySettled | src/ReactorV2.py:57-92 | conversely, every neutron that was alive, not absorbed, and whose turn ended in the grid (or the grid is toric) has a survivor with its id |
| ReactorV2.SurvivorIgnoresNextId | src/ReactorV2.py:57-92 | a neutron's survivor does not depend on the id counter |
| ReactorV2.GenSurvivorsAreTurnResults | src/ReactorV2.py:57-92 | every survivor is exactly the neutron some population member's own turn left: same id, cell, speed, kind and age |
| ReactorV2.GenKeepsEveryTurnResult | src/ReactorV2.py:57-92 | every neutron that was alive, not absorbed, and whose turn ended in the grid (or the grid is toric) appears among the survivors exactly as its own turn left it |
| ReactorV2.GenBirths | src/ReactorV2.py:75-81 | a generation spawns exactly the sum, over live neutrons that chose fission, of their clamped multiplicities, and next_id advances by that sum |
| ReactorV2.BirthsBounds | src/ReactorV2.py:76 | the births lie between 2 and 5 times the number of fissions |
| ReactorV2.GenNewbornsAtParents | src/ReactorV2.py:75-81 | every newborn sits on the cell of a live neutron of the population that chose fission |
| ReactorV2.GenSurvivorsDistinct | src/ReactorV2.py:91-92 | survivors of a population with distinct ids have distinct ids |
| ReactorV2.NextPopulation | src/ReactorV2.py:95 | the next population is the newborns, in order, followed by the survivors, in order, and nothing else |
| ReactorV2.GenSurvivorIdsBelow | src/ReactorV2.py:57-92 | from the invariant, every survivor's id lies below the next_id the generation started from |
| ReactorV2.BornThenKeptDistinct | src/ReactorV2.py:95 | ids next_id, next_id+1, … followed by distinct ids below next_id are pairwise distinct |
| ReactorV2.GenNewbornsInGrid | src/ReactorV2.py:75-81 | from the invariant, every newborn lies in the grid, because it sits on its parent's cell |
| ReactorV2.GenNextInBounds | src/ReactorV2.py:95 | from the invariant, every neutron of newborns ++ survivors is alive, in the grid, and has an id below the new next_id |
| ReactorV2.GenNextDistinct | src/ReactorV2.py:79-95 | from the invariant, newborns ++ survivors have pairwise distinct ids |
| ReactorV2.GenPreservesInv | src/ReactorV2.py:53-95 | one generation preserves "alive, in the grid, 0 ≤ id < next_id, ids distinct" and never lowers next_id |
| ReactorV2.DroppedNeverReappear | src/ReactorV2.py:60-73 | no neutron of the next population has the id of a dead or absorbed neutron |
| ReactorV2.SnapshotContents | src/ReactorV2.py:98 | the snapshot's keys are the population's ids and, with distinct ids, each id maps to its neutron's (x, y) |
| ReactorV2.SnapshotSize | src/ReactorV2.py:98 | with distinct ids the snapshot has one entry per neutron |
| ReactorV2.SnapshotInGrid | src/ReactorV2.py:91-98 | a snapshot of a population satisfying the invariant records only cells of the grid |
| ReactorV2.StepPreservesInv | src/ReactorV2.py:53-95 | one generation of simulate, with the draws of its time step, keeps the invariant |
| ReactorV2.EngineStep | src/ReactorV2.py:53-95 | simulate's generation step is defined on every population and never lowers next_id |
| ReactorV2.EngineStepKeepsInv | src/ReactorV2.py:53-95 | simulate's generation step keeps the invariant |
| ReactorV2.Iterate | src/ReactorV2.py:53-99 | for a step that never lowers next_id, k generations record exactly k snapshots and never lower next_id |
| ReactorV2.IterateRecords | src/ReactorV2.py:95-99 | the h-th recorded snapshot is the snapshot of the population after h+1 generations; the last one is the final population's |
| ReactorV2.IterateRecordsSized | src/ReactorV2.py:95-99 | for a step that keeps the invariant, each recorded snapshot is the snapshot after that many generations and has one entry per neutron of that population |
| ReactorV2.IterateKeepsInv | src/ReactorV2.py:53-99 | for a step that keeps the invariant, k generations from the invariant keep it, and every recorded snapshot lies in the grid |
| ReactorV2.InitialPopulation | src/ReactorV2.py:37-38 | the constructor's neutrons have ids 0 … n_initial−1 at (n // 2, m // 2) with speed 1 and the drawn kinds, and satisfy the invariant with next_id = n_initial |
| ReactorV2.Simulate | src/ReactorV2.py:49-103 | the history has exactly n_iter snapshots and next_id never drops below n_initial |
| ReactorV2.SimulateKeepsInv | src/ReactorV2.py:49-103 | after a whole run the population is alive, in the grid and uniquely identified, and every snapshot lies in the grid |
| ReactorV2.SimulateRecords | src/ReactorV2.py:95-103 | each returned snapshot is the snapshot of the population after that many generations and has one entry per neutron of it, so its size is the neutron count |
| RandomProcess.Cumulative | src/random_process.py:27-31 | the thresholds are d/total, then that plus a/total, then that plus f/total, which is 1.0 |
| RandomProcess.SharesSumToOne | src/random_process.py:27-31 | the three normalised weights sum to 1 |
| RandomProcess.ScanAction | src/random_process.py:26-34 | for u ≤ 1 the scan stops at the least index x in {0, 1, 2} with u ≤ cumulative[x] |
| RandomProcess.ChooseAction | src/random_process.py:26-34 | the while loop terminates for u ≤ 1 and returns the least x ≤ 2 with u ≤ cumulative[x] |
| RandomProcess.ScanAgreesOffThresholds | src/random_process.py:32-33 | off the two thresholds the scan chooses what the engine's strict-comparison choose_action chooses |
| RandomProcess.ScanDisagreesOnThreshold | src/random_process.py:32 | exactly at u = d/total the scan picks diffusion while the engine's choose_action does not |
| RandomProcess.NewDirection | src/random_process.py:41-45 | the loop accepts the first draw, whose components are both ±1 |
| RandomProcess.AgentDirectionMayBeAxial | src/Neutron.py:50-54 | unlike new_direction, the agent's draw can return an axis move such as (0, 1) |
| RandomProcess.IdRange | src/random_process.py:81 | the range holds exactly the integers lo ≤ i < lo + k |
| RandomProcess.FissionIds | src/random_process.py:81 | the newborn keys are exactly the integers len(state) ≤ i < len(state) + n_new |
| RandomProcess.NewPosition | src/random_process.py:59-84 | max_speed defaults to 1; given the fission count as an input, raises exactly on a zero weight total or a diffusion with max_speed < 1; absorption gives (False, False) and no newborns; diffusion moves each coordinate by the first direction draw times its magnitude, 1 … max_speed cells, with no newborns; fission keeps the position and keys the newborns len(state) … len(state)+n_new−1, all at (x, y) |
| RandomProcess.FissionIdsCount | src/random_process.py:80-82 | a fission hands out exactly max(0, n_new) ids |
| RandomProcess.IdRangeCount | src/random_process.py:81 | range(lo, lo+k) has max(0, k) elements |
| RandomProcess.FissionIdsFreshWhenDense | src/random_process.py:81-82 | when the state's ids are exactly 0 … len(state)−1, no newborn id is already in use |
| RandomProcess.FissionIdsCollideWhenSparse | src/random_process.py:81-82 | once the state has a gap, a newborn id can equal a live neutron's id |
| NeutronCalls.BindParam | src/Neutron.py:17 | a parameter takes its positional argument, its keyword or its default; it fails exactly on a duplicate or a missing required argument |
| NeutronCalls.BindFrom | src/Neutron.py:17 | binding succeeds exactly when every parameter binds, and then lists each parameter's value in order |
| NeutronCalls.Bind | src/Neutron.py:17 | a call fails exactly on too many positional arguments, an unknown keyword, or a parameter that fails to bind; on success positional arguments and keywords land in their slots |
| NeutronCalls.Subscript | src/Neutron.py:68-71 | looking up a key in a string fails; in the probability dict it yields the named probability |
| NeutronCalls.KindNamed | src/Neutron.py:22 | "fast", "epithermal" and "thermal" name the three kinds |
| NeutronCalls.FirstEvolveLookupIsThreshold | src/Neutron.py:59-71 | for a call that builds an agent, the first evolve looks nothing up exactly for a thermal agent, and otherwise looks up the probability below which that agent's evolve changes its kind |
| NeutronCalls.AgentOf | src/Neutron.py:17-32 | a well-typed bound call is the agent with those fields, age 0 and alive |
| NeutronCalls.InitialCallAsWritten | src/ReactorV2.py:38 | the constructor's call binds the kind string to thermalization_probs and leaves type "fast", so the first evolve fails and no agent is built |
| NeutronCalls.InitialCallCorrected | src/ReactorV2.py:38 | passing the probabilities and the kind by name builds exactly the model's initial neutron, and its first evolve succeeds, with a lookup exactly when the kind is not thermal |
| NeutronCalls.FissionCallAsWritten | src/ReactorV2.py:79 | the fission call lacks thermalization_probs and always fails |
| NeutronCalls.FissionCallCorrected | src/ReactorV2.py:79 | with the probabilities supplied the call builds exactly the model's newborn, and its first evolve reads fast_to_epi |

## Where the code departs from its own comments

The model follows the code in each case:

- The engine lets a neutron of any kind fission. The constructor's comment
  (src/ReactorV2.py:41-44) says the starting neutrons will need to slow down
  to produce fissions.
- `evolve` takes an optional moderator and its docstring (src/Neutron.py:60-63)
  describes an update that depends on it, but the engine always calls it
  without one. The engine consults no control rod.
- A snapshot maps an id to (x, y). The trajectory export (src/utils.py:114)
  unpacks each entry as (x, y, type).
- The earlier engine's `choose_action` compares with `>`. The agent engine's
  compares with `<`. The two differ only on the thresholds themselves (see
  `RandomProcess.ScanDisagreesOnThreshold`).

## Left out

- Random sources (`npr.rand`, `npr.choice`, `npr.randint`): every draw is an input, and distributions are not modelled.
- `ln` and `ceil` in both `simul_poisson` functions: the raw multiplicity is an integer input. `cos` in the reactivity is the parameter `cosPi`, with only its endpoint and range facts, plus, for `ReactivityMonotone` alone, the assumption `DecreasingOnUnit` that it decreases on [0, 1].
- Floating-point rounding: floats are exact reals, so `speed * 0.98` and the thresholds carry no rounding error.
- Display, Rich `Live`/`Table`, `sleep` and the `display` flag (src/ReactorV2.py:101-102, 141-153): these are rendering.
- The statistics drivers, the CSV export functions of src/utils.py, and src/main.py: these are I/O and plotting.
- `main_nuclear`, imported by src/random_process.py:8, is not part of this model. `new_position` does not use its grid check.
- The `state` attribute built at src/ReactorV2.py:31 is never read by `simulate`. The fission parameter `l` only shapes the raw draw.
- NeutronAgent.RandomDirection: the infinite rejection loop is a finite sequence of draws. A sequence with no accepted draw gives `None`; the engine's draws are required to contain an accepted one.
- ReactorV2.Simulate: requires n, m ≥ 1, a non-zero weight total and max_speed ≥ 1 for every run. Python fails only when the toric `%`, the division or `randint` is actually reached.
- ReactorV2.InitialPopulation: the kinds drawn from {fast, epithermal} are an input. The thermalization probabilities are a configuration field, which the source's constructor call does not pass (see Findings).
- RandomProcess.ChooseAction: requires u ≤ 1, the range of the uniform draw. For u > 1 Python would index past the list.
- RandomProcess.NewPosition: requires a non-empty direction draw sequence, and magnitudes in [1, max_speed] when max_speed ≥ 1. Its unused `n` and `m` parameters are dropped. Its `l` parameter only feeds `simul_poisson(l)` (src/random_process.py:80), whose result is the raw-count input here. So the ZeroDivisionError that `1/l` raises when l = 0 (src/random_process.py:16) is outside the model, and the "raises exactly" of its contract covers only the steps modelled. Merging the newborns into a caller's state is not modelled, because that caller is not part of this model.
- RandomProcess.NewPosition: an absorbed neutron's `Absorbed` is a constructor of its own, distinct from `At(0, 0)`. In Python the sentinel `(False, False)` compares equal to `(0, 0)`, so a caller cannot tell the two apart by `==`.
- NeutronCalls.Bind: models only the binding rules these calls use: positional, keyword, defaults, duplicates and missing arguments. It does not model `*args`/`**kwargs` or keyword-only parameters.
- The trajectory list is only ever initialised. No modelled operation appends to it.

## Findings

| source | as written | input that shows it | evidently intended | confidence | as-written member | corrected member |
|---|---|---|---|---|---|---|
| src/ReactorV2.py:38 | `Neutron(i, n // 2, m // 2, kind)` passes the drawn kind as the 4th positional argument, `thermalization_probs` | any run with n_initial ≥ 1 and a live neutron reaching `evolve`: the kind string becomes the probabilities, the type stays "fast", and `'epithermal'['fast_to_epi']` raises TypeError | pass the thermalization probabilities as the 4th argument and the drawn kind as `type` | high; not executed | NeutronCalls.InitialCallAsWritten | NeutronCalls.InitialCallCorrected |
| src/ReactorV2.py:79 | `Neutron(next_id, x, y, speed=1.0)` omits the required `thermalization_probs` | any fission, which always spawns at least two neutrons: TypeError for a missing argument | pass the run's thermalization probabilities; the type defaults to fast | high; not executed | NeutronCalls.FissionCallAsWritten | NeutronCalls.FissionCallCorrected |

=== FILE: control_rod.dfy ===
/** A control rod: a role-dependent absorber whose position moves toward a
    target at a bounded speed and whose reactivity worth follows an S-curve
    of its insertion depth (src/controlRod.py). */
module ControlRod {
  import opened Wrappers

  /** The three entries of the rod-type table. */
  datatype Role = Regulation | Compensation | Scram

  /** The constants the table fixes for a role: total worth in pcm and the
      maximum travel speed in percent of stroke per unit of time. */
  datatype RoleSpec = RoleSpec(totalWorthPcm: real, maxSpeed: real)

  function SpecOf(role: Role): (s: RoleSpec)
    ensures s.totalWorthPcm < 0.0 && s.maxSpeed > 0.0
  {
    match role
    case Regulation => RoleSpec(-100.0, 5.0)
    case Compensation => RoleSpec(-1000.0, 0.2)
    case Scram => RoleSpec(-2000.0, 100.0)
  }

  /** The key of a role in the rod-type table. */
  function RoleName(role: Role): string
  {
    match role
    case Regulation => "regulation"
    case Compensation => "compensation"
    case Scram => "scram"
  }

  /** Looks a type name up in the rod-type table. */
  function ParseRole(name: string): (r: Option<Role>)
    ensures r.Some? ==> RoleName(r.value) == name
    ensures r.None? ==> forall role: Role :: RoleName(role) != name
  {
    if name == "regulation" then Some(Regulation)
    else if name == "compensation" then Some(Compensation)
    else if name == "scram" then Some(Scram)
    else None
  }

  /** Every role's table key parses back to that role. */
  lemma ParseRoleName(role: Role)
    ensures ParseRole(RoleName(role)) == Some(role)
  {
  }

  datatype Rod = Rod(
    id: string,
    role: Role,
    totalWorthPcm: real,
    maxSpeed: real,
    positionPercent: real,  // 100 = fully withdrawn, 0 = fully inserted
    targetPosition: real
  )

  predicate InStroke(p: real)
  {
    0.0 <= p <= 100.0
  }

  /** A rod whose constants come from the table for its role and whose
      position lies on the stroke; the target is set from outside and may be
      anything. */
  predicate ValidRod(rod: Rod)
  {
    && rod.totalWorthPcm == SpecOf(rod.role).totalWorthPcm
    && rod.maxSpeed == SpecOf(rod.role).maxSpeed
    && InStroke(rod.positionPercent)
  }

  /** The constructor: an unknown type name is an error; a known one gives a
      fully withdrawn rod aiming at full withdrawal. */
  function NewRod(id: string, typeName: string := "regulation"): (r: Result<Rod, string>)
    ensures r.Failure? <==> typeName !in {"regulation", "compensation", "scram"}
    ensures r.Failure? ==> r.error == "Unknown control rod type: " + typeName
    ensures r.Success? ==>
      && r.value.id == id
      && RoleName(r.value.role) == typeName
      && ValidRod(r.value)
      && r.value.positionPercent == 100.0
      && r.value.targetPosition == 100.0
  {
    match ParseRole(typeName)
    case None => Failure("Unknown control rod type: " + typeName)
    case Some(role) =>
      var spec := SpecOf(role);
      Success(Rod(id, role, spec.totalWorthPcm, spec.maxSpeed, 100.0, 100.0))
  }

  /** A rod built without a type name is a regulation rod with that role's
      table constants. */
  lemma DefaultRodIsRegulation(id: string)
    ensures NewRod(id).Success?
    ensures NewRod(id).value.role == Regulation
    ensures NewRod(id).value.totalWorthPcm == SpecOf(Regulation).totalWorthPcm
    ensures NewRod(id).value.maxSpeed == SpecOf(Regulation).maxSpeed
  {
  }

  function Abs(r: real): real
  {
    if r < 0.0 then -r else r
  }

  function Max(a: real, b: real): real
  {
    if a < b then b else a
  }

  /** The position clamped into the stroke [0, 100]. */
  function ClampStroke(p: real): (c: real)
    ensures InStroke(c)
    ensures InStroke(p) ==> c == p
    ensures p < 0.0 ==> c == 0.0
    ensures p > 100.0 ==> c == 100.0
  {
    if p > 100.0 then 100.0 else if p < 0.0 then 0.0 else p
  }

  /** Distance still to travel. */
  function Gap(rod: Rod): real
  {
    Abs(rod.targetPosition - rod.positionPercent)
  }

  /** One rate-limited move toward the target, followed by the clamp. */
  function Step(rod: Rod, dt: real): (r: Rod)
    // only the position changes, and it always ends on the stroke
    ensures r == rod.(positionPercent := r.positionPercent)
    ensures InStroke(r.positionPercent)
    ensures ValidRod(rod) ==> ValidRod(r)
    // the move is bounded by the speed limit
    ensures dt >= 0.0 && rod.maxSpeed >= 0.0 && InStroke(rod.positionPercent) ==>
      Abs(r.positionPercent - rod.positionPercent) <= rod.maxSpeed * dt
    // a target within reach of one move is hit exactly
    ensures InStroke(rod.targetPosition) && Gap(rod) < rod.maxSpeed * dt ==>
      r.positionPercent == rod.targetPosition
    // toward a target on the stroke the gap shrinks by one full move, or closes
    ensures InStroke(rod.targetPosition) && InStroke(rod.positionPercent) && dt >= 0.0 && rod.maxSpeed >= 0.0 ==>
      Gap(r) == Max(0.0, Gap(rod) - rod.maxSpeed * dt)
  {
    var error := rod.targetPosition - rod.positionPercent;
    var maxMove := rod.maxSpeed * dt;
    assert dt >= 0.0 && rod.maxSpeed >= 0.0 ==> maxMove >= 0.0;
    var moved :=
      if Abs(error) < maxMove then rod.targetPosition
      else if error > 0.0 then rod.positionPercent + maxMove
      else rod.positionPercent - maxMove;
    if InStroke(rod.positionPercent) then
      ClampNeverFarther(moved, rod.positionPercent);
      rod.(positionPercent := ClampStroke(moved))
    else
      rod.(positionPercent := ClampStroke(moved))
  }

  /** Clamping onto the stroke never moves a point away from a point of the stroke. */
  lemma ClampNeverFarther(p: real, q: real)
    requires InStroke(q)
    ensures Abs(ClampStroke(p) - q) <= Abs(p - q)
  {
  }

  /** k successive calls of Step with the same dt. */
  function Steps(rod: Rod, dt: real, k: nat): (r: Rod)
    ensures r == rod.(positionPercent := r.positionPercent)
    ensures k > 0 ==> InStroke(r.positionPercent)
    decreases k
  {
    if k == 0 then rod else Steps(Step(rod, dt), dt, k - 1)
  }

  /** With the target on the stroke and a positive move per step, a rod
      reaches its target after any number of steps whose total travel covers
      the initial gap. */
  lemma {:induction false} StepsReachTarget(rod: Rod, dt: real, k: nat)
    requires ValidRod(rod) && InStroke(rod.targetPosition)
    requires dt >= 0.0
    requires (k as real) * (rod.maxSpeed * dt) >= Gap(rod)
    ensures Steps(rod, dt, k).positionPercent == rod.targetPosition
    decreases k
  {
    var move := rod.maxSpeed * dt;
    if k == 0 {
      assert Gap(rod) == 0.0;
    } else {
      var next := Step(rod, dt);
      assert move >= 0.0;
      assert Gap(next) == Max(0.0, Gap(rod) - move);
      assert ((k - 1) as real) * move == (k as real) * move - move;
      assert ((k - 1) as real) * move >= 0.0;
      StepsReachTarget(next, dt, k - 1);
    }
  }

  /** Conversion of a position (100 = out, 0 = in) to the inserted fraction
      (0 = out, 1 = in). */
  function FractionInserted(positionPercent: real): (f: real)
    ensures InStroke(positionPercent) ==> 0.0 <= f <= 1.0
    ensures positionPercent == 100.0 ==> f == 0.0
    ensures positionPercent == 0.0 ==> f == 1.0
  {
    (100.0 - positionPercent) / 100.0
  }

  /** What the model assumes of x ↦ cos(π·x), which it does not compute:
      its value at both ends of [0,1] and its range. */
  ghost predicate CosineAbstraction(cosPi: real -> real)
  {
    && cosPi(0.0) == 1.0
    && cosPi(1.0) == -1.0
    && forall x: real :: -1.0 <= cosPi(x) <= 1.0
  }

  /** cos(π·x) decreases on [0,1]; used only for the monotonicity lemma. */
  ghost predicate DecreasingOnUnit(cosPi: real -> real)
  {
    forall x: real, y: real :: 0.0 <= x <= y <= 1.0 ==> cosPi(y) <= cosPi(x)
  }

  /** 0.5 * (1 - cos(π·x)) */
  function SCurve(x: real, cosPi: real -> real): (s: real)
    requires CosineAbstraction(cosPi)
    ensures 0.0 <= s <= 1.0
    ensures x == 0.0 ==> s == 0.0
    ensures x == 1.0 ==> s == 1.0
  {
    0.5 * (1.0 - cosPi(x))
  }

  /** The rod's reactivity contribution in pcm. */
  function ReactivityPcm(rod: Rod, cosPi: real -> real): (rho: real)
    requires CosineAbstraction(cosPi)
    ensures rod.positionPercent == 100.0 ==> rho == 0.0
    ensures rod.positionPercent == 0.0 ==> rho == rod.totalWorthPcm
    ensures rod.totalWorthPcm <= 0.0 ==> rod.totalWorthPcm <= rho <= 0.0
  {
    var s := SCurve(FractionInserted(rod.positionPercent), cosPi);
    ScaleByFraction(rod.totalWorthPcm, s);
    rod.totalWorthPcm * s
  }

  /** A non-positive worth scaled by a fraction stays between the worth and 0. */
  lemma ScaleByFraction(w: real, s: real)
    requires 0.0 <= s <= 1.0
    ensures w <= 0.0 ==> w <= w * s <= 0.0
  {
  }

  /** Every rod built from the table has a non-positive reactivity that is at
      least its total worth, whatever its role. */
  lemma ReactivityNonPositive(rod: Rod, cosPi: real -> real)
    requires ValidRod(rod) && CosineAbstraction(cosPi)
    ensures rod.totalWorthPcm <= ReactivityPcm(rod, cosPi) <= 0.0
    ensures rod.totalWorthPcm < 0.0
  {
  }

  /** Inserting a rod deeper never raises its reactivity. */
  lemma ReactivityMonotone(rod: Rod, deeper: real, cosPi: real -> real)
    requires ValidRod(rod) && CosineAbstraction(cosPi) && DecreasingOnUnit(cosPi)
    requires 0.0 <= deeper <= rod.positionPercent
    ensures ReactivityPcm(rod.(positionPercent := deeper), cosPi) <= ReactivityPcm(rod, cosPi)
  {
  }
}

=== FILE: neutron.dfy ===
/** A neutron agent: its identity, grid position, kinetic category, speed and
    age, and the two local moves it makes, diffusion and evolution
    (src/Neutron.py). Every random draw the Python code makes is a parameter. */
module NeutronAgent {
  import opened Wrappers

  /** The kinetic category; it only ever progresses fast → epithermal → thermal. */
  datatype Kind = Fast | Epithermal | Thermal

  /** Position of a kind along the thermalization order. */
  function Rank(k: Kind): nat
  {
    match k
    case Fast => 0
    case Epithermal => 1
    case Thermal => 2
  }

  /** Probabilities of the two transitions when no moderator is present
      (the 'fast_to_epi' and 'epi_to_thermal' entries). */
  datatype ThermalProbs = ThermalProbs(fastToEpi: real, epiToThermal: real)

  /** The slow-down probabilities a moderator supplies. */
  datatype Moderator = Moderator(slowFast: real, slowEpi: real)

  datatype Neutron = Neutron(
    id: int,
    x: int,
    y: int,
    probs: ThermalProbs,
    kind: Kind,
    speed: real,
    traj: seq<(int, int)>,  // positions recorded for plotting; only the start is ever recorded
    age: nat,
    alive: bool
  )

  /** The constructor: a newborn neutron has age 0, is alive, and its
      trajectory holds only its starting cell. */
  function NewNeutron(id: int, x: int, y: int, probs: ThermalProbs, kind: Kind, speed: real): (n: Neutron)
    ensures n.id == id && n.x == x && n.y == y
    ensures n.probs == probs && n.kind == kind && n.speed == speed
    ensures n.age == 0 && n.alive
    ensures n.traj == [(x, y)]
  {
    Neutron(id, x, y, probs, kind, speed, [(x, y)], 0, true)
  }

  // ---------------------------------------------------------------------
  // Direction draw
  // ---------------------------------------------------------------------

  /** A component drawn from [-1, 0, 1]. */
  predicate IsUnitStep(d: int)
  {
    -1 <= d <= 1
  }

  predicate IsUnitPair(p: (int, int))
  {
    IsUnitStep(p.0) && IsUnitStep(p.1)
  }

  /** The rejection loop "draw (dx, dy) until one is non-zero" run over a
      finite sequence of draws: the index of the first accepted draw, or
      |draws| when every draw is rejected (the loop would keep drawing). */
  function FirstMovingIndex(draws: seq<(int, int)>): (k: nat)
    ensures k <= |draws|
    ensures forall j :: 0 <= j < k ==> draws[j] == (0, 0)
    ensures k < |draws| ==> draws[k] != (0, 0)
  {
    if |draws| == 0 then 0
    else if draws[0] != (0, 0) then 0
    else 1 + FirstMovingIndex(draws[1..])
  }

  /** random_direction: the first draw that is not (0, 0). */
  function RandomDirection(draws: seq<(int, int)>): (r: Option<(int, int)>)
    requires forall i :: 0 <= i < |draws| ==> IsUnitPair(draws[i])
    ensures r.Some? ==> IsUnitPair(r.value) && r.value != (0, 0)
    ensures r.Some? ==> exists k :: 0 <= k < |draws| && draws[k] == r.value && forall j :: 0 <= j < k ==> draws[j] == (0, 0)
    ensures r.None? <==> forall i :: 0 <= i < |draws| ==> draws[i] == (0, 0)
  {
    var k := FirstMovingIndex(draws);
    if k < |draws| then Some(draws[k]) else None
  }

  // ---------------------------------------------------------------------
  // Diffusion
  // ---------------------------------------------------------------------

  /** Python's int() on a float: truncation toward zero. */
  function Trunc(r: real): (t: int)
    ensures r >= 0.0 ==> 0 <= t && t as real <= r < t as real + 1.0
    ensures r < 0.0 ==> t <= 0 && t as real - 1.0 < r <= t as real
  {
    if r >= 0.0 then r.Floor else -((-r).Floor)
  }

  /** diffuse(max_speed) once the direction (dx, dy) and the two magnitudes,
      each drawn from [1, max_speed], are known: each coordinate moves by the
      truncation of direction × magnitude × speed. */
  function Diffuse(n: Neutron, dir: (int, int), kx: int, ky: int, maxSpeed: int): (r: Neutron)
    requires IsUnitPair(dir) && dir != (0, 0)
    requires 1 <= kx <= maxSpeed && 1 <= ky <= maxSpeed
    // only the position moves
    ensures r == n.(x := r.x, y := r.y)
    // a zero component leaves that coordinate where it was
    ensures dir.0 == 0 ==> r.x == n.x
    ensures dir.1 == 0 ==> r.y == n.y
    // each move points along its direction component, with the magnitude of
    // magnitude × speed cut down to a whole number of cells
    ensures n.speed >= 0.0 ==> MoveAlong(r.x - n.x, dir.0, kx as real * n.speed)
    ensures n.speed >= 0.0 ==> MoveAlong(r.y - n.y, dir.1, ky as real * n.speed)
  {
    var lenX := kx as real * n.speed;
    var lenY := ky as real * n.speed;
    if n.speed >= 0.0 then
      TruncAlong(dir.0, lenX);
      TruncAlong(dir.1, lenY);
      n.(x := n.x + Trunc(dir.0 as real * lenX), y := n.y + Trunc(dir.1 as real * lenY))
    else
      n.(x := n.x + Trunc(dir.0 as real * lenX), y := n.y + Trunc(dir.1 as real * lenY))
  }

  /** Truncating a signed length keeps its direction and cuts its magnitude
      to a whole number of cells. */
  lemma TruncAlong(d: int, len: real)
    requires IsUnitStep(d)
    ensures len >= 0.0 ==> MoveAlong(Trunc(d as real * len), d, len)
  {
  }

  /** A displacement `delta` in direction `d` (one of -1, 0, 1) whose exact
      length `len` was truncated to a whole number of cells. */
  ghost predicate MoveAlong(delta: int, d: int, len: real)
  {
    && (d == 0 ==> delta == 0)
    && (d == 1 ==> 0 <= delta && delta as real <= len < delta as real + 1.0)
    && (d == -1 ==> delta <= 0 && -delta as real <= len < -delta as real + 1.0)
  }

  /** A neutron at full speed diffuses by exactly magnitude × direction: since
      the direction is never (0, 0), it always leaves its cell, by at most
      max_speed cells per coordinate. */
  lemma DiffuseAtFullSpeed(n: Neutron, dir: (int, int), kx: int, ky: int, maxSpeed: int)
    requires IsUnitPair(dir) && dir != (0, 0)
    requires 1 <= kx <= maxSpeed && 1 <= ky <= maxSpeed
    requires n.speed == 1.0
    ensures Diffuse(n, dir, kx, ky, maxSpeed).x == n.x + dir.0 * kx
    ensures Diffuse(n, dir, kx, ky, maxSpeed).y == n.y + dir.1 * ky
    ensures Diffuse(n, dir, kx, ky, maxSpeed) != n
  {
  }

  /** Once speed × max_speed drops below one cell, diffusion no longer moves
      the neutron at all. */
  lemma DiffuseStalls(n: Neutron, dir: (int, int), kx: int, ky: int, maxSpeed: int)
    requires IsUnitPair(dir) && dir != (0, 0)
    requires 1 <= kx <= maxSpeed && 1 <= ky <= maxSpeed
    requires 0.0 <= n.speed && (maxSpeed as real) * n.speed < 1.0
    ensures Diffuse(n, dir, kx, ky, maxSpeed) == n
  {
    UnderOneCell(kx as real, ky as real, maxSpeed as real, n.speed);
    ShortDiffuseStays(n, dir, kx, ky, maxSpeed);
  }

  lemma ShortDiffuseStays(n: Neutron, dir: (int, int), kx: int, ky: int, maxSpeed: int)
    requires IsUnitPair(dir) && dir != (0, 0)
    requires 1 <= kx <= maxSpeed && 1 <= ky <= maxSpeed
    requires 0.0 <= n.speed && kx as real * n.speed < 1.0 && ky as real * n.speed < 1.0
    ensures Diffuse(n, dir, kx, ky, maxSpeed) == n
  {
  }

  /** Magnitudes of at most max_speed move less than max_speed × speed. */
  lemma UnderOneCell(kx: real, ky: real, limit: real, speed: real)
    requires kx <= limit && ky <= limit && 0.0 <= speed && limit * speed < 1.0
    ensures kx * speed < 1.0 && ky * speed < 1.0
  {
    assert (limit - kx) * speed >= 0.0;
    assert limit * speed - kx * speed == (limit - kx) * speed;
    assert (limit - ky) * speed >= 0.0;
    assert limit * speed - ky * speed == (limit - ky) * speed;
  }

  // ---------------------------------------------------------------------
  // Evolution
  // ---------------------------------------------------------------------

  /** The kind that follows k in the thermalization order (thermal is last). */
  function Next(k: Kind): (k': Kind)
    ensures Rank(k') == if k == Thermal then 2 else Rank(k) + 1
  {
    match k
    case Fast => Epithermal
    case Epithermal => Thermal
    case Thermal => Thermal
  }

  /** Per-step speed factor when no moderator is present. */
  const Decay: real := 0.98

  /** evolve(moderator) with u the single uniform draw it consumes (the
      transition tests short-circuit, so at most one draw is compared). */
  function Evolve(n: Neutron, moderator: Option<Moderator>, u: real): (r: Neutron)
    // kind moves at most one place forward, never back
    ensures r.kind == n.kind || r.kind == Next(n.kind)
    ensures Rank(n.kind) <= Rank(r.kind) <= Rank(n.kind) + 1
    ensures n.kind == Thermal ==> r.kind == Thermal
    // it moves exactly when the draw falls below the applicable probability
    ensures r.kind != n.kind <==>
      (n.kind == Fast && u < (if moderator.None? then n.probs.fastToEpi else moderator.value.slowFast)) ||
      (n.kind == Epithermal && u < (if moderator.None? then n.probs.epiToThermal else moderator.value.slowEpi))
    // without a moderator the neutron ages and slows by 2 %; with one it does not
    ensures moderator.None? ==> r.age == n.age + 1 && r.speed == n.speed * Decay
    ensures moderator.Some? ==> r.age == n.age && r.speed == n.speed
    // nothing else changes
    ensures r == n.(kind := r.kind, age := r.age, speed := r.speed)
  {
    match moderator
    case None =>
      var aged := n.(age := n.age + 1, speed := n.speed * Decay);
      if n.kind == Fast && u < n.probs.fastToEpi then aged.(kind := Epithermal)
      else if n.kind == Epithermal && u < n.probs.epiToThermal then aged.(kind := Thermal)
      else aged
    case Some(md) =>
      if n.kind == Fast && u < md.slowFast then n.(kind := Epithermal)
      else if n.kind == Epithermal && u < md.slowEpi then n.(kind := Thermal)
      else n
  }

  /** Successive moderator-free evolutions with the given draws. */
  function EvolveAll(n: Neutron, us: seq<real>): Neutron
    decreases |us|
  {
    if |us| == 0 then n else EvolveAll(Evolve(n, None, us[0]), us[1..])
  }

  function Pow(b: real, k: nat): real
  {
    if k == 0 then 1.0 else b * Pow(b, k - 1)
  }

  /** Over any number of moderator-free evolutions the kind never regresses
      and gains at most one place per call, the age counts the calls and the
      speed has decayed geometrically. */
  lemma {:induction false} EvolveAllProgress(n: Neutron, us: seq<real>)
    ensures var r := EvolveAll(n, us);
      && Rank(n.kind) <= Rank(r.kind) <= Rank(n.kind) + |us|
      && r.age == n.age + |us|
      && r.speed == n.speed * Pow(Decay, |us|)
      && r == n.(kind := r.kind, age := r.age, speed := r.speed)
    decreases |us|
  {
    if |us| > 0 {
      var m := Evolve(n, None, us[0]);
      EvolveAllProgress(m, us[1..]);
      assert n.speed * Decay * Pow(Decay, |us| - 1) == n.speed * Pow(Decay, |us|);
    }
  }
}

=== FILE: neutron_calls.dfy ===
/** How Python binds the arguments of the two neutron constructor calls in
    src/ReactorV2.py to the constructor's parameters (src/Neutron.py:17),
    and what the bound values make of the first evolve. Only the binding
    rules this constructor needs are modelled: positional arguments fill the
    parameters in order, keywords fill them by name, and trailing parameters
    fall back to their defaults. */
module NeutronCalls {
  import opened Wrappers
  import opened NeutronAgent
  import ReactorV2

  /** The Python values that appear in the calls. */
  datatype PyValue =
    | PyInt(i: int)
    | PyFloat(r: real)
    | PyStr(s: string)
    | PyProbs(probs: ThermalProbs)  // the dict {'fast_to_epi': .., 'epi_to_thermal': ..}

  /** The constructor's parameters in order: the id, the two coordinates,
      the thermalization probabilities, the type name (default "fast") and
      the speed (default 1.0). */
  const Params: seq<string> := ["id", "x", "y", "thermalization_probs", "type", "speed"]

  /** The first four parameters have no default. */
  const Required: nat := 4

  const ProbsSlot: nat := 3
  const TypeSlot: nat := 4
  const SpeedSlot: nat := 5

  function Default(i: nat): PyValue
    requires Required <= i < |Params|
  {
    if i == TypeSlot then PyStr("fast") else PyFloat(1.0)
  }

  /** The value parameter i receives, or the TypeError Python raises for it. */
  function BindParam(args: seq<PyValue>, kw: map<string, PyValue>, i: nat): (r: Result<PyValue, string>)
    requires i < |Params|
    ensures r.Failure? <==> (i < |args| && Params[i] in kw) || (i >= |args| && Params[i] !in kw && i < Required)
    ensures r.Success? && i < |args| ==> r.value == args[i]
    ensures r.Success? && i >= |args| && Params[i] in kw ==> r.value == kw[Params[i]]
    ensures r.Success? && i >= |args| && Params[i] !in kw ==> r.value == Default(i)
  {
    if i < |args| then
      if Params[i] in kw then Failure("TypeError: got multiple values for argument '" + Params[i] + "'")
      else Success(args[i])
    else if Params[i] in kw then Success(kw[Params[i]])
    else if i >= Required then Success(Default(i))
    else Failure("TypeError: missing required positional argument: '" + Params[i] + "'")
  }

  /** Parameters i .. 5 bound in order; the first failing one decides the error. */
  function BindFrom(args: seq<PyValue>, kw: map<string, PyValue>, i: nat): (r: Result<seq<PyValue>, string>)
    requires i <= |Params|
    ensures r.Success? ==> |r.value| == |Params| - i
    ensures r.Success? ==> forall j :: i <= j < |Params| ==>
      BindParam(args, kw, j).Success? && r.value[j - i] == BindParam(args, kw, j).value
    ensures r.Failure? ==> exists j :: i <= j < |Params| && BindParam(args, kw, j).Failure?
    decreases |Params| - i
  {
    if i == |Params| then Success([])
    else
      match BindParam(args, kw, i)
      case Failure(e) => Failure(e)
      case Success(v) =>
        match BindFrom(args, kw, i + 1)
        case Failure(e) => Failure(e)
        case Success(vs) => Success([v] + vs)
  }

  /** The bound parameter list of a constructor call with the given
      positional and keyword arguments. */
  function Bind(args: seq<PyValue>, kw: map<string, PyValue>): (r: Result<seq<PyValue>, string>)
    ensures r.Failure? <==>
      || |args| > |Params|
      || (exists k :: k in kw && k !in Params)
      || (exists j :: 0 <= j < |Params| && BindParam(args, kw, j).Failure?)
    ensures r.Success? ==> |r.value| == |Params| && |args| <= |Params|
    ensures r.Success? ==> forall j :: 0 <= j < |args| ==> r.value[j] == args[j]
    ensures r.Success? ==> forall j :: |args| <= j < |Params| && Params[j] in kw ==> r.value[j] == kw[Params[j]]
  {
    if |args| > |Params| then Failure("TypeError: too many positional arguments")
    else if exists k :: k in kw && k !in Params then Failure("TypeError: unexpected keyword argument")
    else
      var r := BindFrom(args, kw, 0);
      assert r.Success? ==> forall j :: 0 <= j < |Params| ==> r.value[j] == BindParam(args, kw, j).value;
      r
  }

  /** Indexing the stored probabilities by a key: a dict gives its entry;
      a string cannot be indexed by a string. */
  function Subscript(v: PyValue, key: string): (r: Result<real, string>)
    ensures v.PyStr? ==> r.Failure?
    ensures v.PyProbs? && key == "fast_to_epi" ==> r == Success(v.probs.fastToEpi)
    ensures v.PyProbs? && key == "epi_to_thermal" ==> r == Success(v.probs.epiToThermal)
  {
    match v
    case PyProbs(p) =>
      if key == "fast_to_epi" then Success(p.fastToEpi)
      else if key == "epi_to_thermal" then Success(p.epiToThermal)
      else Failure("KeyError: " + key)
    case PyStr(_) => Failure("TypeError: string indices must be integers")
    case _ => Failure("TypeError: object is not subscriptable")
  }

  /** The kind a type string names. */
  function KindNamed(name: string): (k: Option<Kind>)
    ensures k == Some(Fast) <==> name == "fast"
    ensures k == Some(Epithermal) <==> name == "epithermal"
    ensures k == Some(Thermal) <==> name == "thermal"
  {
    if name == "fast" then Some(Fast)
    else if name == "epithermal" then Some(Epithermal)
    else if name == "thermal" then Some(Thermal)
    else None
  }

  /** The probability lookup the first moderator-free evolve performs: a
      fast neutron reads 'fast_to_epi', an epithermal one 'epi_to_thermal',
      any other type none (None). */
  function FirstEvolveLookup(bound: seq<PyValue>): (r: Result<Option<real>, string>)
    requires |bound| == |Params|
    ensures bound[TypeSlot] == PyStr("fast") ==> r == LookupOf(Subscript(bound[ProbsSlot], "fast_to_epi"))
    ensures bound[TypeSlot] == PyStr("epithermal") ==> r == LookupOf(Subscript(bound[ProbsSlot], "epi_to_thermal"))
    ensures bound[TypeSlot] != PyStr("fast") && bound[TypeSlot] != PyStr("epithermal") ==> r == Success(None)
  {
    if bound[TypeSlot] == PyStr("fast") then LookupOf(Subscript(bound[ProbsSlot], "fast_to_epi"))
    else if bound[TypeSlot] == PyStr("epithermal") then LookupOf(Subscript(bound[ProbsSlot], "epi_to_thermal"))
    else Success(None)
  }

  /** For a call that builds an agent, the first evolve looks up exactly the
      probability the agent's moderator-free evolve compares its draw with:
      a thermal agent looks nothing up, and any other changes kind exactly
      when the draw falls below the value looked up. */
  lemma FirstEvolveLookupIsThreshold(bound: seq<PyValue>, u: real)
    requires |bound| == |Params| && AgentOf(bound).Some?
    ensures var n := AgentOf(bound).value;
      && (n.kind == Thermal <==> FirstEvolveLookup(bound) == Success(None))
      && (n.kind != Thermal ==>
            && FirstEvolveLookup(bound).Success? && FirstEvolveLookup(bound).value.Some?
            && (Evolve(n, None, u).kind != n.kind <==> u < FirstEvolveLookup(bound).value.value))
  {
  }

  /** A lookup that was performed: its value, or the error it raised. */
  function LookupOf(r: Result<real, string>): Result<Option<real>, string>
  {
    match r
    case Success(v) => Success(Some(v))
    case Failure(e) => Failure(e)
  }

  /** The agent a well-typed bound parameter list describes. */
  function AgentOf(bound: seq<PyValue>): (r: Option<Neutron>)
    requires |bound| == |Params|
    ensures r.Some? ==>
      && bound[0] == PyInt(r.value.id) && bound[1] == PyInt(r.value.x) && bound[2] == PyInt(r.value.y)
      && bound[ProbsSlot] == PyProbs(r.value.probs)
      && bound[SpeedSlot] == PyFloat(r.value.speed)
      && bound[TypeSlot].PyStr? && KindNamed(bound[TypeSlot].s) == Some(r.value.kind)
      && r.value.age == 0 && r.value.alive
  {
    if && bound[0].PyInt? && bound[1].PyInt? && bound[2].PyInt?
       && bound[ProbsSlot].PyProbs? && bound[SpeedSlot].PyFloat?
       && bound[TypeSlot].PyStr? && KindNamed(bound[TypeSlot].s).Some?
    then Some(NewNeutron(bound[0].i, bound[1].i, bound[2].i, bound[ProbsSlot].probs,
                         KindNamed(bound[TypeSlot].s).value, bound[SpeedSlot].r))
    else None
  }

  // ---------------------------------------------------------------------
  // The constructor's call, line 38
  // ---------------------------------------------------------------------

  /** The constructor's call as written passes the id, the centre cell and
      the drawn kind positionally. So the kind string lands in the
      thermalization probabilities, the type keeps its default "fast"
      whatever was drawn, and the first evolve's 'fast_to_epi' lookup
      indexes a string. */
  lemma InitialCallAsWritten(i: int, x: int, y: int, kindName: string)
    ensures var r := Bind([PyInt(i), PyInt(x), PyInt(y), PyStr(kindName)], map[]);
      && r.Success?
      && r.value[ProbsSlot] == PyStr(kindName)
      && r.value[TypeSlot] == PyStr("fast")
      && FirstEvolveLookup(r.value).Failure?
      && AgentOf(r.value).None?
  {
  }

  /** The call with the run's probabilities and the drawn kind passed by
      name builds exactly the agent the model's initial population holds. */
  lemma InitialCallCorrected(c: ReactorV2.Config, kinds: seq<ReactorV2.InitialKind>, i: int, kindName: string)
    requires ReactorV2.ValidConfig(c) && 0 <= i < |kinds|
    requires KindNamed(kindName) == Some(kinds[i])
    ensures var r := Bind([PyInt(i), PyInt(c.n / 2), PyInt(c.m / 2), PyProbs(c.probs)], map["type" := PyStr(kindName)]);
      && r.Success?
      && r.value[TypeSlot] == PyStr(kindName)
      && FirstEvolveLookup(r.value).Success?
      && (kindName != "thermal" <==> FirstEvolveLookup(r.value).value.Some?)
      && AgentOf(r.value) == Some(ReactorV2.InitialPopulation(c, kinds)[i])
  {
  }

  // ---------------------------------------------------------------------
  // The fission call, line 79
  // ---------------------------------------------------------------------

  /** The fission call as written passes the id and the parent's cell
      positionally and the speed by name. It leaves the required
      thermalization probabilities unbound, so every fission raises. */
  lemma FissionCallAsWritten(id: int, x: int, y: int)
    ensures Bind([PyInt(id), PyInt(x), PyInt(y)], map["speed" := PyFloat(1.0)]).Failure?
  {
  }

  /** With the run's probabilities passed as well, the call builds exactly
      the newborn of the model's fission. */
  lemma FissionCallCorrected(c: ReactorV2.Config, id: int, x: int, y: int)
    ensures var r := Bind([PyInt(id), PyInt(x), PyInt(y), PyProbs(c.probs)], map["speed" := PyFloat(1.0)]);
      && r.Success?
      && FirstEvolveLookup(r.value) == Success(Some(c.probs.fastToEpi))
      && AgentOf(r.value) == Some(ReactorV2.Newborn(c, id, x, y))
  {
  }
}

=== FILE: random_process.dfy ===
/** The stateless helpers of src/random_process.py: the cumulative scan of
    choose_action, the sign-only direction draw of new_direction, and
    new_position, which works on a dictionary of positions keyed by id
    rather than on neutron agents. */
module RandomProcess {
  import opened Wrappers
  import opened NeutronAgent
  import ReactorV2

  // ---------------------------------------------------------------------
  // choose_action
  // ---------------------------------------------------------------------

  /** The list [d, d + a, 1.0] after each weight is divided by the total. */
  function Cumulative(d: real, a: real, f: real): (l: seq<real>)
    requires d + a + f != 0.0
    ensures |l| == 3 && l[2] == 1.0
    // each threshold adds its action's share of the total
    ensures l[0] == d / (d + a + f)
    ensures l[1] == l[0] + a / (d + a + f)
    ensures l[2] == l[1] + f / (d + a + f)
  {
    var t := d + a + f;
    SharesSumToOne(d, a, f);
    [d / t, d / t + a / t, 1.0]
  }

  lemma SharesSumToOne(d: real, a: real, f: real)
    requires d + a + f != 0.0
    ensures d / (d + a + f) + a / (d + a + f) + f / (d + a + f) == 1.0
  {
    var t := d + a + f;
    assert d / t + a / t == (d + a) / t;
    assert (d + a) / t + f / t == t / t;
  }

  /** The index the scan stops at: the first threshold that u does not
      exceed. The draw u comes from [0, 1), so the final threshold 1.0
      always stops it. */
  function ScanAction(d: real, a: real, f: real, u: real): (act: ReactorV2.Action)
    requires d + a + f != 0.0 && u <= 1.0
    ensures u <= Cumulative(d, a, f)[ReactorV2.Code(act)]
    ensures forall y :: 0 <= y < ReactorV2.Code(act) ==> u > Cumulative(d, a, f)[y]
  {
    var l := Cumulative(d, a, f);
    if u <= l[0] then ReactorV2.Diffusion
    else if u <= l[1] then ReactorV2.Absorption
    else ReactorV2.Fission
  }

  /** choose_action as the while loop it is written as: x advances while u
      exceeds l[x]. */
  method ChooseAction(d: real, a: real, f: real, u: real) returns (x: nat)
    requires d + a + f != 0.0 && u <= 1.0
    ensures x <= 2
    ensures u <= Cumulative(d, a, f)[x]
    ensures forall y :: 0 <= y < x ==> u > Cumulative(d, a, f)[y]
    ensures x == ReactorV2.Code(ScanAction(d, a, f, u))
  {
    var l := Cumulative(d, a, f);
    x := 0;
    while u > l[x]
      invariant x <= 2
      invariant forall y :: 0 <= y < x ==> u > l[y]
      decreases 2 - x
    {
      x := x + 1;
    }
  }

  /** Away from the two thresholds the scan chooses what the engine's own
      choose_action (strict comparisons) chooses. */
  lemma ScanAgreesOffThresholds(d: real, a: real, f: real, u: real)
    requires d + a + f != 0.0 && u <= 1.0
    requires u != d / (d + a + f) && u != d / (d + a + f) + a / (d + a + f)
    ensures ScanAction(d, a, f, u) == ReactorV2.ChooseAction(d, a, f, u)
  {
  }

  /** Exactly on the diffusion threshold the two disagree: the scan stops at
      diffusion (u > l[0] is false), the engine does not (u < d/total is
      false). The draw hits this single value with probability zero. */
  lemma ScanDisagreesOnThreshold(d: real, a: real, f: real)
    requires d + a + f != 0.0 && d / (d + a + f) <= 1.0
    ensures ScanAction(d, a, f, d / (d + a + f)) == ReactorV2.Diffusion
    ensures ReactorV2.ChooseAction(d, a, f, d / (d + a + f)) != ReactorV2.Diffusion
  {
  }

  // ---------------------------------------------------------------------
  // new_direction
  // ---------------------------------------------------------------------

  /** A component drawn from [-1, 1]. */
  predicate IsSign(s: int)
  {
    s == -1 || s == 1
  }

  predicate IsSignPair(p: (int, int))
  {
    IsSign(p.0) && IsSign(p.1)
  }

  /** new_direction: the same rejection loop as the agent's, but its
      components are drawn from [-1, 1], so the first draw is always
      accepted and every move is diagonal. */
  function NewDirection(draws: seq<(int, int)>): (r: Option<(int, int)>)
    requires forall i :: 0 <= i < |draws| ==> IsSignPair(draws[i])
    ensures r.Some? <==> |draws| > 0
    ensures r.Some? ==> r.value == draws[0] && IsSignPair(r.value)
  {
    SignPairsAreUnit(draws);
    RandomDirection(draws)
  }

  lemma SignPairsAreUnit(draws: seq<(int, int)>)
    requires forall i :: 0 <= i < |draws| ==> IsSignPair(draws[i])
    ensures forall i :: 0 <= i < |draws| ==> IsUnitPair(draws[i]) && draws[i] != (0, 0)
  {
  }

  /** The agent's draw, by contrast, can move along a single axis. */
  lemma AgentDirectionMayBeAxial()
    ensures RandomDirection([(0, 0), (0, 1)]) == Some((0, 1))
    ensures !IsSignPair((0, 1))
  {
  }

  // ---------------------------------------------------------------------
  // new_position
  // ---------------------------------------------------------------------

  /** The dictionary {id: (x, y)} new_position reads and returns. */
  type State = map<int, (int, int)>

  /** The returned position: a cell, or (False, False) for an absorbed
      neutron. */
  datatype NewPos = At(x: int, y: int) | Absorbed

  /** The ids range(lo, lo + k); empty when k <= 0. */
  function IdRange(lo: int, k: int): (ids: set<int>)
    ensures forall i :: i in ids <==> lo <= i < lo + k
    decreases Max0(k)
  {
    if k <= 0 then {} else IdRange(lo, k - 1) + {lo + k - 1}
  }

  /** The ids a fission hands out: range(len(state), len(state) + nNew). */
  function FissionIds(state: State, nNew: int): (ids: set<int>)
    ensures forall i :: i in ids <==> |state| <= i < |state| + nNew
  {
    IdRange(|state|, nNew)
  }

  function Max0(k: int): nat
  {
    if k < 0 then 0 else k
  }

  /** new_position with its random values as inputs: u for the action, the
      direction draws, the two step magnitudes and the raw fission count
      (this helper does not clamp it). The raw count stands for
      simul_poisson(l), so l itself, and the division by l that count
      performs, lie outside this function. Of the steps modelled here, a
      zero weight total and a diffusion with max_speed below 1 raise in
      Python; both are errors here. */
  function NewPosition(state: State, pos: (int, int), d: real, a: real, f: real, u: real,
                       dirDraws: seq<(int, int)>, kx: int, ky: int, nNew: int, maxSpeed: int := 1)
    : (r: Result<(NewPos, State), string>)
    requires 0.0 <= u < 1.0
    requires |dirDraws| > 0 && forall i :: 0 <= i < |dirDraws| ==> IsSignPair(dirDraws[i])
    requires maxSpeed >= 1 ==> 1 <= kx <= maxSpeed && 1 <= ky <= maxSpeed
    // the two raises of the modelled steps
    ensures r.Failure? <==>
      d + a + f == 0.0 || (ScanAction(d, a, f, u) == ReactorV2.Diffusion && maxSpeed < 1)
    // absorption: the sentinel position and no newborns
    ensures r.Success? && ScanAction(d, a, f, u) == ReactorV2.Absorption ==>
      r.value == (Absorbed, map[])
    // diffusion: along the first direction draw, by the drawn magnitudes,
    // so one to max_speed cells along each axis; no newborns
    ensures r.Success? && ScanAction(d, a, f, u) == ReactorV2.Diffusion ==>
      && r.value.1 == map[]
      && r.value.0.At?
      && r.value.0.x - pos.0 == dirDraws[0].0 * kx
      && r.value.0.y - pos.1 == dirDraws[0].1 * ky
      && 1 <= Abs(r.value.0.x - pos.0) <= maxSpeed
      && 1 <= Abs(r.value.0.y - pos.1) <= maxSpeed
    // fission: the parent stays; the newborns sit on its cell under the ids
    // that follow len(state)
    ensures r.Success? && ScanAction(d, a, f, u) == ReactorV2.Fission ==>
      && r.value.0 == At(pos.0, pos.1)
      && r.value.1.Keys == FissionIds(state, nNew)
      && (forall i :: i in r.value.1 ==> r.value.1[i] == pos)
  {
    if d + a + f == 0.0 then Failure("ZeroDivisionError: division by zero")
    else
      match ScanAction(d, a, f, u)
      case Diffusion =>
        if maxSpeed < 1 then Failure("ValueError: low >= high")
        else
          var dir := NewDirection(dirDraws).value;
          Success((At(pos.0 + dir.0 * kx, pos.1 + dir.1 * ky), map[]))
      case Absorption => Success((Absorbed, map[]))
      case Fission =>
        Success((At(pos.0, pos.1), map i | i in FissionIds(state, nNew) :: pos))
  }

  function Abs(k: int): nat
  {
    if k < 0 then -k else k
  }

  /** A fission adds exactly max(0, nNew) newborns. */
  lemma FissionIdsCount(state: State, nNew: int)
    ensures |FissionIds(state, nNew)| == Max0(nNew)
  {
    IdRangeCount(|state|, nNew);
  }

  lemma {:induction false} IdRangeCount(lo: int, k: int)
    ensures |IdRange(lo, k)| == Max0(k)
    decreases Max0(k)
  {
    if k > 0 {
      var last := lo + k - 1;
      var s' := IdRange(lo, k - 1);
      IdRangeCount(lo, k - 1);
      assert last !in s';
      assert |s' + {last}| == |s'| + 1;
    }
  }

  /** When the state's ids are exactly 0 .. len(state)-1, every newborn id is
      fresh. */
  lemma FissionIdsFreshWhenDense(state: State, nNew: int)
    requires forall i :: i in state <==> 0 <= i < |state|
    ensures FissionIds(state, nNew) !! state.Keys
  {
  }

  /** Once an id has been removed from the state, len(state) falls below the
      largest id and a newborn reuses a live neutron's id. */
  lemma FissionIdsCollideWhenSparse()
    ensures var state: State := map[1 := (0, 0)];
      1 in FissionIds(state, 2) && 1 in state
  {
  }
}

=== FILE: reactor_v2.dfy ===
/** The generation step of the agent-based engine (src/ReactorV2.py): each
    live neutron chooses diffusion, absorption or fission, is moved or
    dropped, spawns fresh fast neutrons on fission, evolves, and is wrapped or
    bounds-checked; the next population is the newborns followed by the
    survivors, and one snapshot is recorded per generation. */
module ReactorV2 {
  import opened Wrappers
  import opened NeutronAgent
  import Utils

  /** The three actions, which the Python code encodes as 0, 1 and 2. */
  datatype Action = Diffusion | Absorption | Fission

  function Code(act: Action): nat
  {
    match act
    case Diffusion => 0
    case Absorption => 1
    case Fission => 2
  }

  /** choose_action with u the uniform draw: diffusion below d/total,
      absorption up to (a+d)/total, fission above. */
  function ChooseAction(d: real, a: real, f: real, u: real): (act: Action)
    requires d + a + f != 0.0
    ensures act == Diffusion <==> u < d / (d + a + f)
    ensures act == Absorption <==> d / (d + a + f) <= u < a / (d + a + f) + d / (d + a + f)
    ensures act == Fission <==> d / (d + a + f) <= u && a / (d + a + f) + d / (d + a + f) <= u
  {
    var total := d + a + f;
    var d1, a1 := d / total, a / total;
    if u < d1 then Diffusion
    else if u < a1 + d1 then Absorption
    else Fission
  }

  /** With non-negative weights and a positive fission weight, the draws at
      the left edges of the three intervals, 0, d/total and (d+a)/total,
      choose diffusion (when d > 0), absorption (when a > 0, else fission)
      and fission. */
  lemma ChooseActionShares(d: real, a: real, f: real)
    requires 0.0 <= d && 0.0 <= a && 0.0 < f
    ensures var t := d + a + f;
      && (d > 0.0 ==> ChooseAction(d, a, f, 0.0) == Diffusion)
      && ChooseAction(d, a, f, d / t) == (if a > 0.0 then Absorption else Fission)
      && ChooseAction(d, a, f, (d + a) / t) == Fission
  {
    var t := d + a + f;
    assert a / t + d / t == (d + a) / t;
    assert a > 0.0 ==> d / t < a / t + d / t;
  }

  /** Engine configuration, validated once at construction. The fission
      parameter l only shapes the raw multiplicity draw, which is an input
      here. */
  datatype Config = Config(
    n: int,
    m: int,
    nInitial: nat,
    d: real,
    a: real,
    f: real,
    maxSpeed: int,
    toric: bool,
    probs: ThermalProbs,
    nIter: nat
  )

  /** A non-empty grid (the toric wrap divides by n and m), a non-zero action
      total (choose_action divides by it) and a maximum step of at least one
      cell (the magnitude draw needs a non-empty range). */
  predicate ValidConfig(c: Config)
  {
    c.n >= 1 && c.m >= 1 && c.d + c.a + c.f != 0.0 && c.maxSpeed >= 1
  }

  /** is_in_the_grid */
  predicate IsInTheGrid(c: Config, i: int, j: int)
  {
    0 <= i < c.n && 0 <= j < c.m
  }

  /** On a valid grid, the cells are exactly those the toric wrap leaves
      alone. */
  lemma InTheGridIffUnwrapped(c: Config, i: int, j: int)
    requires ValidConfig(c)
    ensures IsInTheGrid(c, i, j) <==> i % c.n == i && j % c.m == j
  {
  }

  /** The toric wrap x %= n, y %= m; Python's % and Dafny's agree for a
      positive divisor. */
  function Wrap(c: Config, nt: Neutron): (r: Neutron)
    requires ValidConfig(c)
    ensures IsInTheGrid(c, r.x, r.y)
    ensures r == nt.(x := r.x, y := r.y)
    ensures IsInTheGrid(c, nt.x, nt.y) ==> r == nt
  {
    nt.(x := nt.x % c.n, y := nt.y % c.m)
  }

  /** The wrapped coordinates are congruent to the originals. */
  lemma WrapCongruent(c: Config, nt: Neutron)
    requires ValidConfig(c)
    ensures var r := Wrap(c, nt);
      nt.x == (nt.x / c.n) * c.n + r.x && nt.y == (nt.y / c.m) * c.m + r.y
  {
  }

  /** The end of a neutron's turn: wrap when the grid is toric, then keep it
      only if it lies inside the grid. */
  function Settle(c: Config, nt: Neutron): (r: Option<Neutron>)
    requires ValidConfig(c)
    ensures r.Some? ==> IsInTheGrid(c, r.value.x, r.value.y) && r.value == nt.(x := r.value.x, y := r.value.y)
    ensures c.toric ==> r.Some?
    ensures !c.toric ==> r == (if IsInTheGrid(c, nt.x, nt.y) then Some(nt) else None)
    ensures IsInTheGrid(c, nt.x, nt.y) ==> r == Some(nt)
  {
    var w := if c.toric then Wrap(c, nt) else nt;
    if IsInTheGrid(c, w.x, w.y) then Some(w) else None
  }

  /** Every random value one neutron's turn may consume: the action draw,
      the direction draws of the rejection loop, the two step magnitudes, the
      raw fission multiplicity and the evolution draw. */
  datatype Draw = Draw(
    uAction: real,
    dirDraws: seq<(int, int)>,
    kx: int,
    ky: int,
    poissonRaw: int,
    uEvolve: real
  )

  /** Draws the random source can produce: directions from [-1, 0, 1] with at
      least one non-zero pair (the rejection loop ends) and magnitudes from
      [1, max_speed]. */
  predicate ValidDraw(c: Config, dr: Draw)
  {
    && (forall i :: 0 <= i < |dr.dirDraws| ==> IsUnitPair(dr.dirDraws[i]))
    && (exists k :: 0 <= k < |dr.dirDraws| && dr.dirDraws[k] != (0, 0))
    && 1 <= dr.kx <= c.maxSpeed
    && 1 <= dr.ky <= c.maxSpeed
  }

  /** The direction the rejection loop accepts from the draw's pairs. */
  function DirectionOf(c: Config, dr: Draw): (dir: (int, int))
    requires ValidDraw(c, dr)
    ensures IsUnitPair(dir) && dir != (0, 0)
    ensures RandomDirection(dr.dirDraws) == Some(dir)
  {
    RandomDirection(dr.dirDraws).value
  }

  function ActionOf(c: Config, dr: Draw): Action
    requires ValidConfig(c)
  {
    ChooseAction(c.d, c.a, c.f, dr.uAction)
  }

  /** A neutron that takes part in the generation and is not absorbed. */
  predicate Kept(c: Config, nt: Neutron, dr: Draw)
    requires ValidConfig(c)
  {
    nt.alive && ActionOf(c, dr) != Absorption
  }

  /** A neutron created by fission: fast, at full speed, with the run's
      thermalization probabilities. */
  function Newborn(c: Config, id: int, x: int, y: int): (nb: Neutron)
    ensures nb.id == id && nb.x == x && nb.y == y
    ensures nb.kind == Fast && nb.speed == 1.0 && nb.probs == c.probs
    ensures nb.age == 0 && nb.alive
  {
    NewNeutron(id, x, y, c.probs, Fast, 1.0)
  }

  /** k newborns at (x, y) with the consecutive ids nextId, nextId+1, ... */
  function Newborns(c: Config, nextId: int, k: nat, x: int, y: int): (r: seq<Neutron>)
    ensures |r| == k
    ensures forall i :: 0 <= i < k ==> r[i] == Newborn(c, nextId + i, x, y)
  {
    seq(k, i => Newborn(c, nextId + i, x, y))
  }

  /** The cell a diffusion takes the neutron to: each coordinate moves in
      the drawn direction by the truncation of magnitude × speed. */
  function DiffusedCell(c: Config, nt: Neutron, dr: Draw): (cell: (int, int))
    requires ValidDraw(c, dr)
    ensures nt.speed >= 0.0 ==>
      && MoveAlong(cell.0 - nt.x, DirectionOf(c, dr).0, dr.kx as real * nt.speed)
      && MoveAlong(cell.1 - nt.y, DirectionOf(c, dr).1, dr.ky as real * nt.speed)
  {
    var moved := Diffuse(nt, DirectionOf(c, dr), dr.kx, dr.ky, c.maxSpeed);
    (moved.x, moved.y)
  }

  /** The cell a neutron's turn ends on before the wrap and the grid check:
      the diffused cell, or its own cell when it does not diffuse. */
  function TurnEnd(c: Config, nt: Neutron, dr: Draw): (cell: (int, int))
    requires ValidConfig(c) && ValidDraw(c, dr)
    ensures ActionOf(c, dr) != Diffusion ==> cell == (nt.x, nt.y)
    ensures ActionOf(c, dr) == Diffusion ==> cell == DiffusedCell(c, nt, dr)
  {
    if ActionOf(c, dr) != Diffusion then (nt.x, nt.y) else DiffusedCell(c, nt, dr)
  }

  /** A kept neutron's turn ends where settling keeps it. */
  predicate EndsInGrid(c: Config, nt: Neutron, dr: Draw)
    requires ValidConfig(c) && ValidDraw(c, dr)
  {
    c.toric || IsInTheGrid(c, TurnEnd(c, nt, dr).0, TurnEnd(c, nt, dr).1)
  }

  /** What one neutron's turn contributes to the next population. */
  datatype Outcome = Outcome(newborns: seq<Neutron>, survivor: Option<Neutron>)

  /** One neutron's turn in simulate. */
  function ProcessNeutron(c: Config, nextId: int, nt: Neutron, dr: Draw): (o: Outcome)
    requires ValidConfig(c) && ValidDraw(c, dr)
    // dead and absorbed neutrons contribute nothing
    ensures !Kept(c, nt, dr) ==> o == Outcome([], None)
    // a fission spawns a clamped number of fresh fast neutrons at the parent's cell
    ensures |o.newborns| == (if Kept(c, nt, dr) && ActionOf(c, dr) == Fission then Utils.SimulPoisson(dr.poissonRaw) else 0)
    ensures forall i :: 0 <= i < |o.newborns| ==> o.newborns[i] == Newborn(c, nextId + i, nt.x, nt.y)
    // a survivor is the same neutron, alive, evolved and inside the grid
    ensures o.survivor.Some? ==>
      && o.survivor.value.id == nt.id
      && o.survivor.value.alive
      && IsInTheGrid(c, o.survivor.value.x, o.survivor.value.y)
      && Rank(nt.kind) <= Rank(o.survivor.value.kind) <= Rank(nt.kind) + 1
      && o.survivor.value.age == nt.age + 1
      // only its cell, kind, speed and age may differ from the parent's
      && o.survivor.value.(x := nt.x, y := nt.y, kind := nt.kind, speed := nt.speed, age := nt.age) == nt
    // on a toric grid every kept neutron survives; a parent inside the grid survives its fission
    ensures c.toric && Kept(c, nt, dr) ==> o.survivor.Some?
    ensures Kept(c, nt, dr) && ActionOf(c, dr) == Fission && IsInTheGrid(c, nt.x, nt.y) ==> o.survivor.Some?
  {
    if !nt.alive then Outcome([], None)
    else
      match ActionOf(c, dr)
      case Absorption => Outcome([], None)
      case Diffusion =>
        var moved := Diffuse(nt, DirectionOf(c, dr), dr.kx, dr.ky, c.maxSpeed);
        Outcome([], Settle(c, Evolve(moved, None, dr.uEvolve)))
      case Fission =>
        var born := Newborns(c, nextId, Utils.SimulPoisson(dr.poissonRaw), nt.x, nt.y);
        Outcome(born, Settle(c, Evolve(nt, None, dr.uEvolve)))
  }

  /** A kept neutron survives exactly when its turn ends in the grid or the
      grid is toric. */
  lemma ProcessNeutronSurvives(c: Config, nextId: int, nt: Neutron, dr: Draw)
    requires ValidConfig(c) && ValidDraw(c, dr)
    ensures Kept(c, nt, dr) ==> (ProcessNeutron(c, nextId, nt, dr).survivor.Some? <==> EndsInGrid(c, nt, dr))
  {
  }

  /** Where and how a survivor settles; nothing else about it changes. */
  lemma ProcessNeutronSettles(c: Config, nextId: int, nt: Neutron, dr: Draw)
    requires ValidConfig(c) && ValidDraw(c, dr)
    // it lands on the end cell of its turn, wrapped on a toric grid, and has slowed by 2 %
    ensures var o := ProcessNeutron(c, nextId, nt, dr);
      o.survivor.Some? ==>
        && o.survivor.value.x == (if c.toric then TurnEnd(c, nt, dr).0 % c.n else TurnEnd(c, nt, dr).0)
        && o.survivor.value.y == (if c.toric then TurnEnd(c, nt, dr).1 % c.m else TurnEnd(c, nt, dr).1)
        && o.survivor.value.speed == nt.speed * Decay
        && o.survivor.value.kind == Evolve(nt, None, dr.uEvolve).kind
        // the rest of the record is the parent's, one generation older
        && o.survivor.value == nt.(x := o.survivor.value.x, y := o.survivor.value.y,
                                   kind := o.survivor.value.kind, age := nt.age + 1, speed := nt.speed * Decay)
  {
  }

  /** A neutron's survivor does not depend on the id counter. */
  lemma SurvivorIgnoresNextId(c: Config, nextId: int, nextId': int, nt: Neutron, dr: Draw)
    requires ValidConfig(c) && ValidDraw(c, dr)
    ensures ProcessNeutron(c, nextId, nt, dr).survivor == ProcessNeutron(c, nextId', nt, dr).survivor
  {
  }

  function OptionToSeq<T>(o: Option<T>): (s: seq<T>)
    ensures |s| <= 1
    ensures o.Some? ==> s == [o.value]
    ensures o.None? ==> s == []
  {
    if o.Some? then [o.value] else []
  }

  /** What a generation hands on: the newborns, the survivors, and the next
      free id. */
  datatype Generation = Generation(newborns: seq<Neutron>, survivors: seq<Neutron>, nextId: int)

  ghost predicate GenPre(c: Config, pop: seq<Neutron>, draws: seq<Draw>)
  {
    && ValidConfig(c)
    && |draws| == |pop|
    && forall i :: 0 <= i < |draws| ==> ValidDraw(c, draws[i])
  }

  /** The inner loop of simulate over the current population, in order. */
  function Gen(c: Config, pop: seq<Neutron>, draws: seq<Draw>, nextId: int): (g: Generation)
    requires GenPre(c, pop, draws)
    // the id counter advances by exactly the number of newborns, which carry consecutive ids
    ensures g.nextId == nextId + |g.newborns|
    ensures forall i :: 0 <= i < |g.newborns| ==>
      && g.newborns[i].id == nextId + i
      && g.newborns[i].kind == Fast
      && g.newborns[i].alive
      && g.newborns[i].age == 0
      && g.newborns[i].speed == 1.0
    // survivors are alive, inside the grid, and never more numerous than the population
    ensures forall i :: 0 <= i < |g.survivors| ==>
      g.survivors[i].alive && IsInTheGrid(c, g.survivors[i].x, g.survivors[i].y)
    ensures |g.survivors| <= |pop|
    decreases |pop|
  {
    if |pop| == 0 then Generation([], [], nextId)
    else
      var o := ProcessNeutron(c, nextId, pop[0], draws[0]);
      var rest := Gen(c, pop[1..], draws[1..], nextId + |o.newborns|);
      Generation(o.newborns + rest.newborns, OptionToSeq(o.survivor) + rest.survivors, rest.nextId)
  }

  // ---------------------------------------------------------------------
  // A generation as its turns, gathered
  // ---------------------------------------------------------------------

  /** Every neutron's turn in population order, each turn numbering its
      newborns from where the previous one stopped. */
  function Turns(c: Config, pop: seq<Neutron>, draws: seq<Draw>, nextId: int): (outs: seq<Outcome>)
    requires GenPre(c, pop, draws)
    ensures |outs| == |pop|
    decreases |pop|
  {
    if |pop| == 0 then []
    else
      var o := ProcessNeutron(c, nextId, pop[0], draws[0]);
      [o] + Turns(c, pop[1..], draws[1..], nextId + |o.newborns|)
  }

  /** Gathering turn outcomes: their newborns in turn order, and their
      survivors in turn order. */
  function Collect(outs: seq<Outcome>, nextId: int): Generation
    decreases |outs|
  {
    if |outs| == 0 then Generation([], [], nextId)
    else
      var rest := Collect(outs[1..], nextId + |outs[0].newborns|);
      Generation(outs[0].newborns + rest.newborns, OptionToSeq(outs[0].survivor) + rest.survivors, rest.nextId)
  }

  /** The loop's two lists are exactly the turns' newborns and survivors,
      gathered in population order. */
  lemma {:induction false} GenIsCollect(c: Config, pop: seq<Neutron>, draws: seq<Draw>, nextId: int)
    requires GenPre(c, pop, draws)
    ensures Gen(c, pop, draws, nextId) == Collect(Turns(c, pop, draws, nextId), nextId)
    decreases |pop|
  {
    if |pop| > 0 {
      var o := ProcessNeutron(c, nextId, pop[0], draws[0]);
      var outs := Turns(c, pop, draws, nextId);
      var rest := Turns(c, pop[1..], draws[1..], nextId + |o.newborns|);
      GenIsCollect(c, pop[1..], draws[1..], nextId + |o.newborns|);
      TailOfCons(o, rest);
    }
  }

  lemma TailOfCons<T>(x: T, s: seq<T>)
    ensures ([x] + s)[0] == x && ([x] + s)[1..] == s
  {
  }

  /** Each turn is that neutron's own turn, at some value of the id
      counter. */
  lemma {:induction false} TurnsAt(c: Config, pop: seq<Neutron>, draws: seq<Draw>, nextId: int, j: int)
    requires GenPre(c, pop, draws) && 0 <= j < |pop|
    ensures exists id :: Turns(c, pop, draws, nextId)[j] == ProcessNeutron(c, id, pop[j], draws[j])
    decreases j
  {
    var o := ProcessNeutron(c, nextId, pop[0], draws[0]);
    var outs := Turns(c, pop, draws, nextId);
    if j == 0 {
      assert outs[0] == o;
    } else {
      var rest := Turns(c, pop[1..], draws[1..], nextId + |o.newborns|);
      TurnsAt(c, pop[1..], draws[1..], nextId + |o.newborns|, j - 1);
      assert outs[j] == rest[j - 1];
      assert pop[1..][j - 1] == pop[j] && draws[1..][j - 1] == draws[j];
    }
  }

  /** A turn's survivor is among the gathered survivors. */
  lemma {:induction false} CollectKeeps(outs: seq<Outcome>, nextId: int, j: int)
    requires 0 <= j < |outs| && outs[j].survivor.Some?
    ensures SurvivorIn(Collect(outs, nextId).survivors, outs[j].survivor)
    decreases j
  {
    var rest := Collect(outs[1..], nextId + |outs[0].newborns|);
    assert Collect(outs, nextId).survivors == OptionToSeq(outs[0].survivor) + rest.survivors;
    if j == 0 {
      SurvivorInHead(outs[0].survivor, rest.survivors);
    } else {
      assert outs[1..][j - 1] == outs[j];
      CollectKeeps(outs[1..], nextId + |outs[0].newborns|, j - 1);
      SurvivorInTail(OptionToSeq(outs[0].survivor), rest.survivors, outs[j].survivor);
    }
  }

  /** Some turn left exactly this survivor. */
  ghost predicate FromSomeTurn(outs: seq<Outcome>, s: Neutron)
  {
    exists j :: 0 <= j < |outs| && outs[j].survivor == Some(s)
  }

  /** Every gathered survivor is some turn's survivor. */
  lemma {:induction false} CollectSurvivorsFromTurns(outs: seq<Outcome>, nextId: int)
    ensures forall k :: 0 <= k < |Collect(outs, nextId).survivors| ==>
      FromSomeTurn(outs, Collect(outs, nextId).survivors[k])
    decreases |outs|
  {
    if |outs| > 0 {
      var rest := Collect(outs[1..], nextId + |outs[0].newborns|);
      var head := OptionToSeq(outs[0].survivor);
      var all := Collect(outs, nextId).survivors;
      CollectSurvivorsFromTurns(outs[1..], nextId + |outs[0].newborns|);
      assert all == head + rest.survivors;
      forall k | 0 <= k < |all|
        ensures FromSomeTurn(outs, all[k])
      {
        if k < |head| {
          assert outs[0].survivor == Some(all[k]);
        } else {
          assert all[k] == rest.survivors[k - |head|];
          assert FromSomeTurn(outs[1..], all[k]);
          var j :| 0 <= j < |outs[1..]| && outs[1..][j].survivor == Some(all[k]);
          assert outs[j + 1] == outs[1..][j];
        }
      }
    }
  }

  /** Some turn spawned exactly this newborn. */
  ghost predicate BornInSomeTurn(outs: seq<Outcome>, nb: Neutron)
  {
    exists j, i :: 0 <= j < |outs| && 0 <= i < |outs[j].newborns| && outs[j].newborns[i] == nb
  }

  /** Every gathered newborn is a newborn of some turn. */
  lemma {:induction false} CollectNewbornsFromTurns(outs: seq<Outcome>, nextId: int)
    ensures forall k :: 0 <= k < |Collect(outs, nextId).newborns| ==>
      BornInSomeTurn(outs, Collect(outs, nextId).newborns[k])
    decreases |outs|
  {
    if |outs| > 0 {
      var rest := Collect(outs[1..], nextId + |outs[0].newborns|);
      var head := outs[0].newborns;
      var all := Collect(outs, nextId).newborns;
      CollectNewbornsFromTurns(outs[1..], nextId + |outs[0].newborns|);
      assert all == head + rest.newborns;
      forall k | 0 <= k < |all|
        ensures BornInSomeTurn(outs, all[k])
      {
        if k < |head| {
          assert outs[0].newborns[k] == all[k];
        } else {
          assert all[k] == rest.newborns[k - |head|];
          assert BornInSomeTurn(outs[1..], all[k]);
          var j, i :| 0 <= j < |outs[1..]| && 0 <= i < |outs[1..][j].newborns| && outs[1..][j].newborns[i] == all[k];
          assert outs[j + 1] == outs[1..][j];
        }
      }
    }
  }

  /** Each turn's survivor, if any, keeps the id of its neutron. */
  ghost predicate KeepIds(outs: seq<Outcome>, pop: seq<Neutron>)
  {
    && |outs| == |pop|
    && forall j :: 0 <= j < |outs| && outs[j].survivor.Some? ==> outs[j].survivor.value.id == pop[j].id
  }

  /** Turns whose survivors keep the ids of a population with distinct ids
      gather into survivors with distinct ids. */
  lemma {:induction false} CollectSurvivorsDistinct(outs: seq<Outcome>, pop: seq<Neutron>, nextId: int)
    requires KeepIds(outs, pop) && DistinctIds(pop)
    ensures DistinctIds(Collect(outs, nextId).survivors)
    decreases |outs|
  {
    if |outs| > 0 {
      var rest := Collect(outs[1..], nextId + |outs[0].newborns|).survivors;
      KeepIdsTail(outs, pop);
      CollectSurvivorsDistinct(outs[1..], pop[1..], nextId + |outs[0].newborns|);
      CollectHeadIdFresh(outs, pop, nextId);
      CollectSurvivorsCons(outs, nextId);
      ConsDistinct(OptionToSeq(outs[0].survivor), rest, pop[0].id);
    } else {
      assert Collect(outs, nextId).survivors == [];
    }
  }

  /** No neutron of s carries this id. */
  ghost predicate LacksId(s: seq<Neutron>, id: int)
  {
    forall k :: 0 <= k < |s| ==> s[k].id != id
  }

  lemma KeepIdsTail(outs: seq<Outcome>, pop: seq<Neutron>)
    requires KeepIds(outs, pop) && DistinctIds(pop) && |outs| > 0
    ensures KeepIds(outs[1..], pop[1..]) && DistinctIds(pop[1..])
    ensures forall i :: 0 <= i < |OptionToSeq(outs[0].survivor)| ==> OptionToSeq(outs[0].survivor)[i].id == pop[0].id
  {
    assert forall j :: 0 <= j < |outs| - 1 ==> outs[1..][j] == outs[j + 1] && pop[1..][j] == pop[j + 1];
  }

  lemma CollectSurvivorsCons(outs: seq<Outcome>, nextId: int)
    requires |outs| > 0
    ensures Collect(outs, nextId).survivors ==
      OptionToSeq(outs[0].survivor) + Collect(outs[1..], nextId + |outs[0].newborns|).survivors
  {
  }

  /** No survivor gathered from the later turns carries the first neutron's
      id. */
  lemma CollectHeadIdFresh(outs: seq<Outcome>, pop: seq<Neutron>, nextId: int)
    requires KeepIds(outs, pop) && DistinctIds(pop) && |outs| > 0
    ensures LacksId(Collect(outs[1..], nextId + |outs[0].newborns|).survivors, pop[0].id)
  {
    var tail := outs[1..];
    var rest := Collect(tail, nextId + |outs[0].newborns|).survivors;
    CollectSurvivorsFromTurns(tail, nextId + |outs[0].newborns|);
    forall k | 0 <= k < |rest|
      ensures rest[k].id != pop[0].id
    {
      assert FromSomeTurn(tail, rest[k]);
      var j :| 0 <= j < |tail| && tail[j].survivor == Some(rest[k]);
      assert tail[j] == outs[j + 1];
    }
  }


  /** Some neutron of the population with this id was alive, not absorbed,
      and ended its turn where settling keeps it. */
  ghost predicate KeptWithId(c: Config, pop: seq<Neutron>, draws: seq<Draw>, id: int)
    requires GenPre(c, pop, draws)
  {
    exists j :: 0 <= j < |pop| && Kept(c, pop[j], draws[j]) && EndsInGrid(c, pop[j], draws[j]) && pop[j].id == id
  }

  ghost predicate SurvivorsKept(c: Config, pop: seq<Neutron>, draws: seq<Draw>, survivors: seq<Neutron>)
    requires GenPre(c, pop, draws)
  {
    forall k :: 0 <= k < |survivors| ==> KeptWithId(c, pop, draws, survivors[k].id)
  }

  /** Every survivor is a neutron of the population that was alive, not
      absorbed, and ended its turn where settling keeps it. */
  lemma GenSurvivorsWereKept(c: Config, pop: seq<Neutron>, draws: seq<Draw>, nextId: int)
    requires GenPre(c, pop, draws)
    ensures SurvivorsKept(c, pop, draws, Gen(c, pop, draws, nextId).survivors)
  {
    var survivors := Gen(c, pop, draws, nextId).survivors;
    GenSurvivorsAreTurnResults(c, pop, draws, nextId);
    forall k | 0 <= k < |survivors|
      ensures KeptWithId(c, pop, draws, survivors[k].id)
    {
      assert SurvivorOfTurn(c, pop, draws, survivors[k]);
      var j :| 0 <= j < |pop| && ProcessNeutron(c, 0, pop[j], draws[j]).survivor == Some(survivors[k]);
      ProcessNeutronSurvives(c, 0, pop[j], draws[j]);
    }
  }

  /** The survivors include a neutron with this id. */
  ghost predicate SurvivorWithId(survivors: seq<Neutron>, id: int)
  {
    exists k :: 0 <= k < |survivors| && survivors[k].id == id
  }

  /** The turn's result is present among the survivors. */
  ghost predicate SurvivorIn(survivors: seq<Neutron>, o: Option<Neutron>)
  {
    o.Some? && exists k :: 0 <= k < |survivors| && survivors[k] == o.value
  }

  /** Conversely, every neutron that was alive, not absorbed, and ended its
      turn where settling keeps it is among the survivors. */
  lemma GenKeepsEverySettled(c: Config, pop: seq<Neutron>, draws: seq<Draw>, nextId: int, j: int)
    requires GenPre(c, pop, draws) && 0 <= j < |pop|
    requires Kept(c, pop[j], draws[j]) && EndsInGrid(c, pop[j], draws[j])
    ensures SurvivorWithId(Gen(c, pop, draws, nextId).survivors, pop[j].id)
  {
    var survivors := Gen(c, pop, draws, nextId).survivors;
    var s := ProcessNeutron(c, 0, pop[j], draws[j]).survivor;
    GenKeepsEveryTurnResult(c, pop, draws, nextId, j);
    var k :| 0 <= k < |survivors| && survivors[k] == s.value;
  }

  /** Moreover, such a neutron appears among the survivors exactly as its own
      turn left it. */
  lemma GenKeepsEveryTurnResult(c: Config, pop: seq<Neutron>, draws: seq<Draw>, nextId: int, j: int)
    requires GenPre(c, pop, draws) && 0 <= j < |pop|
    requires Kept(c, pop[j], draws[j]) && EndsInGrid(c, pop[j], draws[j])
    ensures SurvivorIn(Gen(c, pop, draws, nextId).survivors, ProcessNeutron(c, 0, pop[j], draws[j]).survivor)
  {
    var outs := Turns(c, pop, draws, nextId);
    GenIsCollect(c, pop, draws, nextId);
    TurnsAt(c, pop, draws, nextId, j);
    var id :| outs[j] == ProcessNeutron(c, id, pop[j], draws[j]);
    KeptSurvivorIsTurnResult(c, pop[j], draws[j], id);
    CollectKeeps(outs, nextId, j);
  }

  /** A neutron whose turn ends where settling keeps it survives, and its
      survivor does not depend on the id counter. */
  lemma KeptSurvivorIsTurnResult(c: Config, nt: Neutron, dr: Draw, nextId: int)
    requires ValidConfig(c) && ValidDraw(c, dr) && Kept(c, nt, dr) && EndsInGrid(c, nt, dr)
    ensures ProcessNeutron(c, nextId, nt, dr).survivor.Some?
    ensures ProcessNeutron(c, nextId, nt, dr).survivor == ProcessNeutron(c, 0, nt, dr).survivor
  {
    ProcessNeutronSurvives(c, nextId, nt, dr);
    SurvivorIgnoresNextId(c, nextId, 0, nt, dr);
  }

  lemma SurvivorInHead(o: Option<Neutron>, rest: seq<Neutron>)
    requires o.Some?
    ensures SurvivorIn(OptionToSeq(o) + rest, o)
  {
    assert (OptionToSeq(o) + rest)[0] == o.value;
  }

  lemma SurvivorInTail(head: seq<Neutron>, rest: seq<Neutron>, o: Option<Neutron>)
    requires SurvivorIn(rest, o)
    ensures SurvivorIn(head + rest, o)
  {
    var k :| 0 <= k < |rest| && rest[k] == o.value;
    assert (head + rest)[|head| + k] == o.value;
  }


  /** Some neutron of the population whose own turn left exactly this
      survivor. */
  ghost predicate SurvivorOfTurn(c: Config, pop: seq<Neutron>, draws: seq<Draw>, s: Neutron)
    requires GenPre(c, pop, draws)
  {
    exists j :: 0 <= j < |pop| && ProcessNeutron(c, 0, pop[j], draws[j]).survivor == Some(s)
  }

  /** Every survivor is the result of one neutron's turn: its cell, speed,
      kind and age are those the turn gave it. */
  lemma GenSurvivorsAreTurnResults(c: Config, pop: seq<Neutron>, draws: seq<Draw>, nextId: int)
    requires GenPre(c, pop, draws)
    ensures forall k :: 0 <= k < |Gen(c, pop, draws, nextId).survivors| ==>
      SurvivorOfTurn(c, pop, draws, Gen(c, pop, draws, nextId).survivors[k])
  {
    var outs := Turns(c, pop, draws, nextId);
    var survivors := Gen(c, pop, draws, nextId).survivors;
    GenIsCollect(c, pop, draws, nextId);
    CollectSurvivorsFromTurns(outs, nextId);
    forall k | 0 <= k < |survivors|
      ensures SurvivorOfTurn(c, pop, draws, survivors[k])
    {
      assert FromSomeTurn(outs, survivors[k]);
      var j :| 0 <= j < |outs| && outs[j].survivor == Some(survivors[k]);
      TurnsAt(c, pop, draws, nextId, j);
      var id :| outs[j] == ProcessNeutron(c, id, pop[j], draws[j]);
      SurvivorIgnoresNextId(c, id, 0, pop[j], draws[j]);
    }
  }

  /** The number of neutrons a population's fissions spawn: the clamped
      multiplicity for every live neutron that chooses fission, nothing for
      the others. */
  function Births(c: Config, pop: seq<Neutron>, draws: seq<Draw>): nat
    requires ValidConfig(c) && |draws| == |pop|
    decreases |pop|
  {
    if |pop| == 0 then 0
    else
      var here := if Kept(c, pop[0], draws[0]) && ActionOf(c, draws[0]) == Fission
        then Utils.SimulPoisson(draws[0].poissonRaw) else 0;
      here + Births(c, pop[1..], draws[1..])
  }

  /** A generation spawns exactly the births its fissions call for, and the
      id counter advances by that many. */
  lemma {:induction false} GenBirths(c: Config, pop: seq<Neutron>, draws: seq<Draw>, nextId: int)
    requires GenPre(c, pop, draws)
    ensures |Gen(c, pop, draws, nextId).newborns| == Births(c, pop, draws)
    ensures Gen(c, pop, draws, nextId).nextId == nextId + Births(c, pop, draws)
    decreases |pop|
  {
    if |pop| > 0 {
      var o := ProcessNeutron(c, nextId, pop[0], draws[0]);
      GenBirths(c, pop[1..], draws[1..], nextId + |o.newborns|);
    }
  }

  /** Every fission spawns between two and five neutrons. */
  lemma {:induction false} BirthsBounds(c: Config, pop: seq<Neutron>, draws: seq<Draw>)
    requires ValidConfig(c) && |draws| == |pop|
    ensures 2 * Fissions(c, pop, draws) <= Births(c, pop, draws) <= 5 * Fissions(c, pop, draws)
    decreases |pop|
  {
    if |pop| > 0 {
      BirthsBounds(c, pop[1..], draws[1..]);
    }
  }

  /** The number of live neutrons that choose fission. */
  function Fissions(c: Config, pop: seq<Neutron>, draws: seq<Draw>): nat
    requires ValidConfig(c) && |draws| == |pop|
    decreases |pop|
  {
    if |pop| == 0 then 0
    else
      var here := if Kept(c, pop[0], draws[0]) && ActionOf(c, draws[0]) == Fission then 1 else 0;
      here + Fissions(c, pop[1..], draws[1..])
  }

  /** A neutron of the population that was alive and chose fission, and so
      left newborns on its cell. */
  ghost predicate FissionParentAt(c: Config, pop: seq<Neutron>, draws: seq<Draw>, x: int, y: int)
    requires GenPre(c, pop, draws)
  {
    exists j :: 0 <= j < |pop| && pop[j].alive && ActionOf(c, draws[j]) == Fission && pop[j].x == x && pop[j].y == y
  }

  ghost predicate NewbornsAtParents(c: Config, pop: seq<Neutron>, draws: seq<Draw>, newborns: seq<Neutron>)
    requires GenPre(c, pop, draws)
  {
    forall k :: 0 <= k < |newborns| ==> FissionParentAt(c, pop, draws, newborns[k].x, newborns[k].y)
  }

  /** Every newborn sits on the cell of a parent that was alive and chose
      fission. */
  lemma GenNewbornsAtParents(c: Config, pop: seq<Neutron>, draws: seq<Draw>, nextId: int)
    requires GenPre(c, pop, draws)
    ensures NewbornsAtParents(c, pop, draws, Gen(c, pop, draws, nextId).newborns)
  {
    var outs := Turns(c, pop, draws, nextId);
    var born := Gen(c, pop, draws, nextId).newborns;
    GenIsCollect(c, pop, draws, nextId);
    CollectNewbornsFromTurns(outs, nextId);
    forall k | 0 <= k < |born|
      ensures FissionParentAt(c, pop, draws, born[k].x, born[k].y)
    {
      assert BornInSomeTurn(outs, born[k]);
      var j, i :| 0 <= j < |outs| && 0 <= i < |outs[j].newborns| && outs[j].newborns[i] == born[k];
      TurnsAt(c, pop, draws, nextId, j);
      var id :| outs[j] == ProcessNeutron(c, id, pop[j], draws[j]);
      assert pop[j].alive && ActionOf(c, draws[j]) == Fission && pop[j].x == born[k].x && pop[j].y == born[k].y;
    }
  }

  ghost predicate DistinctIds(pop: seq<Neutron>)
  {
    forall i, j :: 0 <= i < j < |pop| ==> pop[i].id != pop[j].id
  }

  /** Survivors of a population with distinct ids have distinct ids. */
  lemma GenSurvivorsDistinct(c: Config, pop: seq<Neutron>, draws: seq<Draw>, nextId: int)
    requires GenPre(c, pop, draws) && DistinctIds(pop)
    ensures DistinctIds(Gen(c, pop, draws, nextId).survivors)
  {
    var outs := Turns(c, pop, draws, nextId);
    GenIsCollect(c, pop, draws, nextId);
    forall j | 0 <= j < |outs| && outs[j].survivor.Some?
      ensures outs[j].survivor.value.id == pop[j].id
    {
      TurnsAt(c, pop, draws, nextId, j);
      var id :| outs[j] == ProcessNeutron(c, id, pop[j], draws[j]);
    }
    assert KeepIds(outs, pop);
    CollectSurvivorsDistinct(outs, pop, nextId);
  }


  /** At most one neutron with a given id in front of distinct neutrons
      without that id keeps the ids distinct. */
  lemma ConsDistinct(head: seq<Neutron>, rest: seq<Neutron>, id: int)
    requires |head| <= 1 && (forall i :: 0 <= i < |head| ==> head[i].id == id)
    requires DistinctIds(rest) && LacksId(rest, id)
    ensures DistinctIds(head + rest)
  {
    var all := head + rest;
    forall i, j | 0 <= i < j < |all|
      ensures all[i].id != all[j].id
    {
      if i >= |head| {
        assert all[i] == rest[i - |head|] && all[j] == rest[j - |head|];
      } else {
        assert all[j] == rest[j - |head|];
      }
    }
  }


  /** The engine's invariant between generations: every neutron of the
      population is alive, inside the grid, and has an id below the counter,
      and no two share an id. */
  ghost predicate Inv(c: Config, pop: seq<Neutron>, nextId: int)
  {
    && (forall i :: 0 <= i < |pop| ==>
         pop[i].alive && IsInTheGrid(c, pop[i].x, pop[i].y) && 0 <= pop[i].id < nextId)
    && DistinctIds(pop)
  }

  /** The next population: newborns first, then survivors. */
  function NextPopulation(g: Generation): (next: seq<Neutron>)
    ensures |next| == |g.newborns| + |g.survivors|
    ensures forall i :: 0 <= i < |g.newborns| ==> next[i] == g.newborns[i]
    ensures forall k :: 0 <= k < |g.survivors| ==> next[|g.newborns| + k] == g.survivors[k]
  {
    g.newborns + g.survivors
  }

  /** Everyone in the next population is alive, inside the grid, and has an
      id below the advanced counter. */
  lemma GenNextInBounds(c: Config, pop: seq<Neutron>, draws: seq<Draw>, nextId: int)
    requires GenPre(c, pop, draws) && Inv(c, pop, nextId)
    ensures var g := Gen(c, pop, draws, nextId);
      forall i :: 0 <= i < |NextPopulation(g)| ==>
        var nt := NextPopulation(g)[i];
        nt.alive && IsInTheGrid(c, nt.x, nt.y) && 0 <= nt.id < g.nextId
  {
    var g := Gen(c, pop, draws, nextId);
    GenNewbornsInGrid(c, pop, draws, nextId);
    GenSurvivorIdsBelow(c, pop, draws, nextId);
    assert AllInBounds(c, g.newborns, g.nextId);
    assert AllInBounds(c, g.survivors, g.nextId);
    InBoundsConcat(c, g.newborns, g.survivors, g.nextId);
    assert NextPopulation(g) == g.newborns + g.survivors;
  }

  /** From the invariant, every newborn is placed on a cell of the grid. */
  lemma GenNewbornsInGrid(c: Config, pop: seq<Neutron>, draws: seq<Draw>, nextId: int)
    requires GenPre(c, pop, draws) && Inv(c, pop, nextId)
    ensures forall i :: 0 <= i < |Gen(c, pop, draws, nextId).newborns| ==>
      IsInTheGrid(c, Gen(c, pop, draws, nextId).newborns[i].x, Gen(c, pop, draws, nextId).newborns[i].y)
  {
    var born := Gen(c, pop, draws, nextId).newborns;
    GenNewbornsAtParents(c, pop, draws, nextId);
    forall i | 0 <= i < |born|
      ensures IsInTheGrid(c, born[i].x, born[i].y)
    {
      assert FissionParentAt(c, pop, draws, born[i].x, born[i].y);
      var j :| 0 <= j < |pop| && pop[j].alive && ActionOf(c, draws[j]) == Fission && pop[j].x == born[i].x && pop[j].y == born[i].y;
    }
  }

  /** Neutrons that are alive, inside the grid and identified below hi. */
  ghost predicate AllInBounds(c: Config, s: seq<Neutron>, hi: int)
  {
    forall i :: 0 <= i < |s| ==> s[i].alive && IsInTheGrid(c, s[i].x, s[i].y) && 0 <= s[i].id < hi
  }

  lemma InBoundsConcat(c: Config, a: seq<Neutron>, b: seq<Neutron>, hi: int)
    requires AllInBounds(c, a, hi) && AllInBounds(c, b, hi)
    ensures AllInBounds(c, a + b, hi)
  {
    forall i | 0 <= i < |a + b|
      ensures (a + b)[i].alive && IsInTheGrid(c, (a + b)[i].x, (a + b)[i].y) && 0 <= (a + b)[i].id < hi
    {
      if i >= |a| {
        assert (a + b)[i] == b[i - |a|];
      }
    }
  }


  /** Survivors keep ids the population already had, so all lie below the
      counter the generation started from. */
  lemma GenSurvivorIdsBelow(c: Config, pop: seq<Neutron>, draws: seq<Draw>, nextId: int)
    requires GenPre(c, pop, draws) && Inv(c, pop, nextId)
    ensures forall k :: 0 <= k < |Gen(c, pop, draws, nextId).survivors| ==>
      0 <= Gen(c, pop, draws, nextId).survivors[k].id < nextId
  {
    var g := Gen(c, pop, draws, nextId);
    GenSurvivorsWereKept(c, pop, draws, nextId);
    forall k | 0 <= k < |g.survivors|
      ensures 0 <= g.survivors[k].id < nextId
    {
      assert KeptWithId(c, pop, draws, g.survivors[k].id);
      var p :| 0 <= p < |pop| && Kept(c, pop[p], draws[p]) && EndsInGrid(c, pop[p], draws[p]) && pop[p].id == g.survivors[k].id;
    }
  }

  /** Newborn ids are fresh and consecutive, survivor ids are old and
      distinct, so the next population has distinct ids. */
  lemma GenNextDistinct(c: Config, pop: seq<Neutron>, draws: seq<Draw>, nextId: int)
    requires GenPre(c, pop, draws) && Inv(c, pop, nextId)
    ensures DistinctIds(NextPopulation(Gen(c, pop, draws, nextId)))
  {
    var g := Gen(c, pop, draws, nextId);
    GenSurvivorIdsBelow(c, pop, draws, nextId);
    GenSurvivorsDistinct(c, pop, draws, nextId);
    BornThenKeptDistinct(g.newborns, g.survivors, nextId);
  }

  /** Consecutive ids from lo followed by distinct ids below lo are all
      distinct. */
  lemma BornThenKeptDistinct(born: seq<Neutron>, kept: seq<Neutron>, lo: int)
    requires forall i :: 0 <= i < |born| ==> born[i].id == lo + i
    requires forall k :: 0 <= k < |kept| ==> kept[k].id < lo
    requires DistinctIds(kept)
    ensures DistinctIds(born + kept)
  {
    var all := born + kept;
    forall i, j | 0 <= i < j < |all|
      ensures all[i].id != all[j].id
    {
      if j < |born| {
        assert all[i] == born[i] && all[j] == born[j];
      } else if i < |born| {
        assert all[i] == born[i] && all[j] == kept[j - |born|];
      } else {
        assert all[i] == kept[i - |born|] && all[j] == kept[j - |born|];
      }
    }
  }

  /** One generation keeps the invariant. */
  lemma GenPreservesInv(c: Config, pop: seq<Neutron>, draws: seq<Draw>, nextId: int)
    requires GenPre(c, pop, draws) && Inv(c, pop, nextId)
    ensures Inv(c, NextPopulation(Gen(c, pop, draws, nextId)), Gen(c, pop, draws, nextId).nextId)
    ensures Gen(c, pop, draws, nextId).nextId >= nextId
  {
    GenNextInBounds(c, pop, draws, nextId);
    GenNextDistinct(c, pop, draws, nextId);
  }

  /** A neutron that was dead or got absorbed is not in the next
      population: survivors keep only ids of kept neutrons and newborns get
      fresh ones. */
  lemma DroppedNeverReappear(c: Config, pop: seq<Neutron>, draws: seq<Draw>, nextId: int, j: int)
    requires GenPre(c, pop, draws) && Inv(c, pop, nextId)
    requires 0 <= j < |pop| && !Kept(c, pop[j], draws[j])
    ensures forall k :: 0 <= k < |NextPopulation(Gen(c, pop, draws, nextId))| ==>
      NextPopulation(Gen(c, pop, draws, nextId))[k].id != pop[j].id
  {
    var g := Gen(c, pop, draws, nextId);
    GenSurvivorsWereKept(c, pop, draws, nextId);
    var next := NextPopulation(g);
    forall k | 0 <= k < |next|
      ensures next[k].id != pop[j].id
    {
      if k < |g.newborns| {
        assert next[k] == g.newborns[k];
        assert next[k].id >= nextId;
      } else {
        assert next[k] == g.survivors[k - |g.newborns|];
        assert KeptWithId(c, pop, draws, g.survivors[k - |g.newborns|].id);
        var p :| 0 <= p < |pop| && Kept(c, pop[p], draws[p]) && EndsInGrid(c, pop[p], draws[p]) && pop[p].id == g.survivors[k - |g.newborns|].id;
        assert p != j;
      }
    }
  }

  // ---------------------------------------------------------------------
  // History and the run
  // ---------------------------------------------------------------------

  /** A history entry: id ↦ (x, y). */
  type Snapshot = map<int, (int, int)>

  function IdSet(pop: seq<Neutron>): set<int>
  {
    set i | 0 <= i < |pop| :: pop[i].id
  }

  /** The snapshot of a population: each id maps to its neutron's cell; on
      a repeated id the later neutron wins. */
  function SnapshotOf(pop: seq<Neutron>): Snapshot
    decreases |pop|
  {
    if |pop| == 0 then map[]
    else
      var last := pop[|pop| - 1];
      SnapshotOf(pop[..|pop| - 1])[last.id := (last.x, last.y)]
  }

  /** The snapshot's keys are the population's ids and, when the ids are
      distinct, each id maps to its own neutron's cell. */
  lemma {:induction false} SnapshotContents(pop: seq<Neutron>)
    ensures SnapshotOf(pop).Keys == IdSet(pop)
    ensures DistinctIds(pop) ==> forall i :: 0 <= i < |pop| ==> SnapshotOf(pop)[pop[i].id] == (pop[i].x, pop[i].y)
    decreases |pop|
  {
    if |pop| > 0 {
      var init := pop[..|pop| - 1];
      var last := pop[|pop| - 1];
      SnapshotContents(init);
      assert IdSet(pop) == IdSet(init) + {last.id} by {
        forall id | id in IdSet(pop) ensures id in IdSet(init) + {last.id} {
          var i :| 0 <= i < |pop| && pop[i].id == id;
          if i < |pop| - 1 { assert init[i] == pop[i]; }
        }
        forall id | id in IdSet(init) ensures id in IdSet(pop) {
          var i :| 0 <= i < |init| && init[i].id == id;
          assert pop[i] == init[i];
        }
      }
      if DistinctIds(pop) {
        assert DistinctIds(init);
        forall i | 0 <= i < |pop|
          ensures SnapshotOf(pop)[pop[i].id] == (pop[i].x, pop[i].y)
        {
          if i < |pop| - 1 {
            assert init[i] == pop[i];
          }
        }
      }
    }
  }

  /** With distinct ids the snapshot has one entry per neutron. */
  lemma {:induction false} SnapshotSize(pop: seq<Neutron>)
    requires DistinctIds(pop)
    ensures |SnapshotOf(pop)| == |pop|
    decreases |pop|
  {
    if |pop| > 0 {
      var init := pop[..|pop| - 1];
      var last := pop[|pop| - 1];
      assert DistinctIds(init);
      SnapshotSize(init);
      forall i | 0 <= i < |init|
        ensures init[i].id != last.id
      {
        assert init[i] == pop[i];
      }
      assert last.id !in IdSet(init);
      SnapshotContents(init);
    }
  }

  /** A snapshot that records only cells of the grid. */
  ghost predicate SnapshotInside(c: Config, s: Snapshot)
  {
    forall id :: id in s ==> IsInTheGrid(c, s[id].0, s[id].1)
  }

  ghost predicate HistoryInside(c: Config, history: seq<Snapshot>)
  {
    forall h :: 0 <= h < |history| ==> SnapshotInside(c, history[h])
  }

  /** A snapshot of a population satisfying the invariant records only
      cells of the grid. */
  lemma SnapshotInGrid(c: Config, pop: seq<Neutron>, nextId: int)
    requires Inv(c, pop, nextId)
    ensures SnapshotInside(c, SnapshotOf(pop))
  {
    SnapshotContents(pop);
    forall id | id in SnapshotOf(pop)
      ensures IsInTheGrid(c, SnapshotOf(pop)[id].0, SnapshotOf(pop)[id].1)
    {
      var i :| 0 <= i < |pop| && pop[i].id == id;
    }
  }

  /** The draws of generation t, one per neutron in processing order. */
  function DrawsAt(rng: (nat, nat) -> Draw, t: nat, count: nat): (r: seq<Draw>)
    ensures |r| == count
    ensures forall i :: 0 <= i < count ==> r[i] == rng(t, i)
  {
    seq(count, (i: int) requires 0 <= i => rng(t, i))
  }

  ghost predicate ValidSource(c: Config, rng: (nat, nat) -> Draw)
  {
    forall t: nat, i: nat :: ValidDraw(c, rng(t, i))
  }

  datatype Run = Run(history: seq<Snapshot>, pop: seq<Neutron>, nextId: int)

  /** One generation of simulate at time t: the next population and the
      advanced id counter. */
  function Step(c: Config, pop: seq<Neutron>, nextId: int, rng: (nat, nat) -> Draw, t: nat): (s: (seq<Neutron>, int))
    requires ValidConfig(c) && ValidSource(c, rng)
    ensures s.1 >= nextId
  {
    var g := Gen(c, pop, DrawsAt(rng, t, |pop|), nextId);
    (NextPopulation(g), g.nextId)
  }

  /** One generation keeps the invariant. */
  lemma StepPreservesInv(c: Config, pop: seq<Neutron>, nextId: int, rng: (nat, nat) -> Draw, t: nat)
    requires ValidConfig(c) && ValidSource(c, rng) && Inv(c, pop, nextId)
    ensures Inv(c, Step(c, pop, nextId, rng, t).0, Step(c, pop, nextId, rng, t).1)
  {
    GenPreservesInv(c, pop, DrawsAt(rng, t, |pop|), nextId);
  }

  /** A generation step, from the population, the id counter and the
      generation's index to the next population and counter. */
  type Stepper = (seq<Neutron>, int, nat) --> (seq<Neutron>, int)

  /** A step defined everywhere that never lowers the id counter. */
  ghost predicate Advancing(step: Stepper)
  {
    forall p, i, t :: step.requires(p, i, t) && step(p, i, t).1 >= i
  }

  /** A step that keeps the invariant. */
  ghost predicate KeepsInv(c: Config, step: Stepper)
  {
    forall p, i, t :: step.requires(p, i, t) && (Inv(c, p, i) ==> Inv(c, step(p, i, t).0, step(p, i, t).1))
  }

  /** simulate's generation step for a configuration and a random source. */
  function EngineStep(c: Config, rng: (nat, nat) -> Draw): (step: Stepper)
    requires ValidConfig(c) && ValidSource(c, rng)
    ensures Advancing(step)
    ensures forall p, i, t :: step.requires(p, i, t) && step(p, i, t) == Step(c, p, i, rng, t)
  {
    (p: seq<Neutron>, i: int, t: nat) requires ValidConfig(c) && ValidSource(c, rng) => Step(c, p, i, rng, t)
  }

  /** The engine's step keeps the invariant. */
  lemma EngineStepKeepsInv(c: Config, rng: (nat, nat) -> Draw)
    requires ValidConfig(c) && ValidSource(c, rng)
    ensures KeepsInv(c, EngineStep(c, rng))
  {
    var step := EngineStep(c, rng);
    forall p, i, t
      ensures step.requires(p, i, t) && (Inv(c, p, i) ==> Inv(c, step(p, i, t).0, step(p, i, t).1))
    {
      if Inv(c, p, i) {
        StepPreservesInv(c, p, i, rng, t);
      }
    }
  }

  /** The outer loop of simulate from generation t on, for k generations. */
  function Iterate(step: Stepper, pop: seq<Neutron>, nextId: int, t: nat, k: nat): (r: Run)
    requires Advancing(step)
    ensures |r.history| == k
    ensures r.nextId >= nextId
    decreases k
  {
    if k == 0 then Run([], pop, nextId)
    else
      var s := step(pop, nextId, t);
      var rest := Iterate(step, s.0, s.1, t + 1, k - 1);
      Run([SnapshotOf(s.0)] + rest.history, rest.pop, rest.nextId)
  }

  /** Every snapshot of a run started from the invariant records positions
      inside the grid, and the invariant holds at the end. */
  lemma {:induction false} IterateKeepsInv(c: Config, step: Stepper, pop: seq<Neutron>, nextId: int, t: nat, k: nat)
    requires Advancing(step) && KeepsInv(c, step) && Inv(c, pop, nextId)
    ensures Inv(c, Iterate(step, pop, nextId, t, k).pop, Iterate(step, pop, nextId, t, k).nextId)
    ensures HistoryInside(c, Iterate(step, pop, nextId, t, k).history)
    decreases k
  {
    if k > 0 {
      var s := step(pop, nextId, t);
      IterateKeepsInv(c, step, s.0, s.1, t + 1, k - 1);
      SnapshotInGrid(c, s.0, s.1);
      var rest := Iterate(step, s.0, s.1, t + 1, k - 1);
      var r := Iterate(step, pop, nextId, t, k);
      assert r.history == [SnapshotOf(s.0)] + rest.history;
      forall h | 0 <= h < |r.history|
        ensures SnapshotInside(c, r.history[h])
      {
        if h > 0 {
          assert r.history[h] == rest.history[h - 1];
        }
      }
    }
  }

  /** The history records, for each generation, the snapshot of the
      population that generation produced; the last entry is the final
      population's snapshot. */
  lemma IterateRecords(step: Stepper, pop: seq<Neutron>, nextId: int, t: nat, k: nat)
    requires Advancing(step)
    ensures forall h :: 0 <= h < k ==>
      Iterate(step, pop, nextId, t, k).history[h] == SnapshotOf(Iterate(step, pop, nextId, t, h + 1).pop)
    ensures k > 0 ==>
      Iterate(step, pop, nextId, t, k).history[k - 1] == SnapshotOf(Iterate(step, pop, nextId, t, k).pop)
  {
    forall h | 0 <= h < k
      ensures Iterate(step, pop, nextId, t, k).history[h] == SnapshotOf(Iterate(step, pop, nextId, t, h + 1).pop)
    {
      IterateRecordsAt(step, pop, nextId, t, k, h);
    }
  }

  /** Entry h of a k-generation history is the snapshot after h + 1
      generations. */
  lemma {:induction false} IterateRecordsAt(step: Stepper, pop: seq<Neutron>, nextId: int, t: nat, k: nat, h: nat)
    requires Advancing(step) && h < k
    ensures Iterate(step, pop, nextId, t, k).history[h] == SnapshotOf(Iterate(step, pop, nextId, t, h + 1).pop)
    decreases h
  {
    var s := step(pop, nextId, t);
    var history := Iterate(step, pop, nextId, t, k).history;
    var rest := Iterate(step, s.0, s.1, t + 1, k - 1).history;
    var after := Iterate(step, pop, nextId, t, h + 1).pop;
    assert history == [SnapshotOf(s.0)] + rest;
    assert after == Iterate(step, s.0, s.1, t + 1, h).pop;
    if h == 0 {
      assert after == s.0;
    } else {
      IterateRecordsAt(step, s.0, s.1, t + 1, k - 1, h - 1);
      assert history[h] == rest[h - 1];
    }
  }

  /** For a step that keeps the invariant, each history entry is the
      snapshot after that many generations and has one entry per neutron. */
  lemma IterateRecordsSized(c: Config, step: Stepper, pop: seq<Neutron>, nextId: int, t: nat, k: nat)
    requires Advancing(step) && KeepsInv(c, step) && Inv(c, pop, nextId)
    ensures forall h :: 0 <= h < k ==>
      var after := Iterate(step, pop, nextId, t, h + 1).pop;
      Iterate(step, pop, nextId, t, k).history[h] == SnapshotOf(after) && |Iterate(step, pop, nextId, t, k).history[h]| == |after|
  {
    forall h | 0 <= h < k
      ensures var after := Iterate(step, pop, nextId, t, h + 1).pop;
        Iterate(step, pop, nextId, t, k).history[h] == SnapshotOf(after) && |Iterate(step, pop, nextId, t, k).history[h]| == |after|
    {
      IterateRecordsAt(step, pop, nextId, t, k, h);
      IterateKeepsInv(c, step, pop, nextId, t, h + 1);
      SnapshotSize(Iterate(step, pop, nextId, t, h + 1).pop);
    }
  }

  /** A starting kind: the constructor draws it from fast and epithermal. */
  type InitialKind = k: Kind | k != Thermal witness Fast

  /** The constructor's population: ids 0 .. n_initial-1 at the grid's centre
      cell (n // 2, m // 2), at full speed, with the drawn kinds. */
  function InitialPopulation(c: Config, kinds: seq<InitialKind>): (pop: seq<Neutron>)
    requires ValidConfig(c)
    ensures |pop| == |kinds|
    ensures forall i :: 0 <= i < |pop| ==>
      pop[i] == NewNeutron(i, c.n / 2, c.m / 2, c.probs, kinds[i], 1.0)
    ensures Inv(c, pop, |kinds|)
  {
    seq(|kinds|, (i: int) requires 0 <= i < |kinds| => NewNeutron(i, c.n / 2, c.m / 2, c.probs, kinds[i], 1.0))
  }

  /** simulate: n_iter generations from the constructor's population, with
      the id counter starting at the population size. */
  function Simulate(c: Config, kinds: seq<InitialKind>, rng: (nat, nat) -> Draw): (r: Run)
    requires ValidConfig(c) && ValidSource(c, rng) && |kinds| == c.nInitial
    ensures |r.history| == c.nIter
    ensures r.nextId >= c.nInitial
  {
    Iterate(EngineStep(c, rng), InitialPopulation(c, kinds), c.nInitial, 0, c.nIter)
  }

  /** Over a whole run, the final population is alive, inside the grid and
      uniquely identified, and every recorded position lies in the grid. */
  lemma SimulateKeepsInv(c: Config, kinds: seq<InitialKind>, rng: (nat, nat) -> Draw)
    requires ValidConfig(c) && ValidSource(c, rng) && |kinds| == c.nInitial
    ensures Inv(c, Simulate(c, kinds, rng).pop, Simulate(c, kinds, rng).nextId)
    ensures HistoryInside(c, Simulate(c, kinds, rng).history)
  {
    EngineStepKeepsInv(c, rng);
    IterateKeepsInv(c, EngineStep(c, rng), InitialPopulation(c, kinds), c.nInitial, 0, c.nIter);
  }

  /** Each recorded snapshot of a run is the snapshot of the population after
      that many generations, and it has one entry per neutron of that
      population, so its size is the neutron count. */
  lemma SimulateRecords(c: Config, kinds: seq<InitialKind>, rng: (nat, nat) -> Draw)
    requires ValidConfig(c) && ValidSource(c, rng) && |kinds| == c.nInitial
    ensures forall h :: 0 <= h < c.nIter ==>
      var after := Iterate(EngineStep(c, rng), InitialPopulation(c, kinds), c.nInitial, 0, h + 1).pop;
      Simulate(c, kinds, rng).history[h] == SnapshotOf(after) && |Simulate(c, kinds, rng).history[h]| == |after|
  {
    EngineStepKeepsInv(c, rng);
    IterateRecordsSized(c, EngineStep(c, rng), InitialPopulation(c, kinds), c.nInitial, 0, c.nIter);
  }

}

=== FILE: utils.dfy ===
/** The bounded fission multiplicity of src/utils.py. The raw Poisson-like
    draw ceil(-(1/l)·ln u) is taken as an integer input; only the clamp that
    follows it is modelled. */
module Utils {

  /** A fission releases at least this many neutrons ... */
  const MinYield: int := 2
  /** ... and at most this many. */
  const MaxYield: int := 5

  /** simul_poisson: the raw multiplicity clamped into [2, 5]. */
  function SimulPoisson(raw: int): (k: int)
    ensures MinYield <= k <= MaxYield
    ensures MinYield <= raw <= MaxYield ==> k == raw
    ensures raw < MinYield ==> k == MinYield
    ensures raw > MaxYield ==> k == MaxYield
  {
    var low := if raw < MinYield then MinYield else raw;
    if low > MaxYield then MaxYield else low
  }

  /** A larger raw draw never yields fewer neutrons. */
  lemma SimulPoissonMonotone(a: int, b: int)
    requires a <= b
    ensures SimulPoisson(a) <= SimulPoisson(b)
  {
  }

  /** Clamping an already clamped multiplicity changes nothing. */
  lemma SimulPoissonIdempotent(raw: int)
    ensures SimulPoisson(SimulPoisson(raw)) == SimulPoisson(raw)
  {
  }
}

=== FILE: wrappers.dfy ===
/** Failure-carrying datatypes shared by the modules of the simulator model. */
module Wrappers {

  /** An optional value: the simulator uses it for "no survivor" and for a
      draw sequence that never produced an accepted direction. */
  datatype Option<+T> = None | Some(value: T)

  /** Either a value or the error the Python code would raise. */
  datatype Result<+R, +E> = Success(value: R) | Failure(error: E)
}
